=== FILE: README.md ===
# ChronoFeed core, modelled in Dafny

ChronoFeed is a Next.js application that presents Vietnamese history as a
social feed. This project models its core: the route handlers over the
post, comment, notification, user and visitor-statistics collections, and
the client logic around them. The client logic covers the feed hook, the
language toggle, the photo and compose forms, and the registration page.

The database becomes an immutable store value, `Store.Db`. Its parts are:

- posts, as a map keyed by `postId`;
- visitor statistics, as a map keyed by `odId`;
- comments, notifications and users, as sequences.

Comments and notifications are kept newest first, so the `createdAt`
descending sort of the listings is the stored order. Each handler is a pure
function from a store and a request to `Result<Reply<T>>`. That is either
the new store with the response body, or an error status with its bilingual
message. A `Fail` carries no store, and almost every failing handler writes
nothing before it fails. There are two exceptions:

- AddComment answers 500 for an unknown or authorless post only after it
  has written the comment and the reply counter. `Comments.CommentWrites`
  states those writes.
- A failed seeding has already emptied the posts and inserted the events
  before the first duplicate key. `Seed.Seed` returns that store beside
  its `Fail`.

A request field that the source only tests for truthiness is a `string`, and
`""` stands for both absent and empty (`Common.Given`, `Common.OrElse`).

Modules, one per source file, on top of shared ones:

- `Common`: `Option`, `Result`, HTTP statuses, field truthiness.
- `Text`: `trim`, `includes`, `indexOf`, first-occurrence `replace`, `slice`, the
  `[^a-z0-9_]` filter, decimal rendering.
- `Lists`: `filter`, `includes`/`push`, `[...new Set(s)]`.
- `Paging`: skip, limit and `Math.ceil(total / limit)`.
- `Records`: one datatype per schema, with the schema's rules as predicates.
- `Store`: the abstract database.
- Route handlers: `Like`, `Comments`, `Stats`, `Posts`, `Notifications`,
  `Auth`, `Seed`.
- Client logic: `Feed`, `Language`, `PhotoPost`, `Compose`, `RegisterPage`.

Effects the model cannot see are parameters:

- the clock, as an ordering tick and an ISO string;
- the identifier the database assigns;
- the values `Math.random` produces;
- `toLowerCase`, as an abstract `lower`;
- `URL.createObjectURL`;
- the bundled mock posts;
- the outcomes of `fetch` calls;
- the contents of the events data file.

## Model

| member | source | states |
|---|---|---|
| Like.ToggleLike | src/app/api/posts/like/route.ts:16-88 | The handler with the placeholder accepted. A request without postId or odId is a 400. An effective like of a record that names no author is a 500 and writes nothing, because its notification cannot be created. Otherwise the target post, created if the id is unknown, is the only post record that changes, and it is stored as the toggle applied to that record (`Toggle(Target(...))`). Comments, users and statistics are untouched. The answer reports the record's like count and whether the user is in its likedBy afterwards. |
| Like.ToggleLikeAsWritten | src/app/api/posts/like/route.ts:25-41 | As written, a request about an unknown postId is a 500, because the placeholder's empty content fails the schema. Every other request is answered as by the intended handler. |
| Like.GetLikeStatus | src/app/api/posts/like/route.ts:91-126 | Without postId it is a 400. isLiked holds exactly when a user is given and that user is in the stored post's likedBy. An unknown post reports 0 likes. |
| Like.UnknownPostGetsPlaceholder | src/app/api/posts/like/route.ts:23-41 | An unknown postId is first created under that id, attributed to '@unknown', with zero counters and empty likedBy and retweetedBy. |
| Like.PlaceholderLacksContent | src/app/api/posts/like/route.ts:32 | The placeholder's content is empty, which the post schema's required content rejects. It meets every other required-field rule. |
| Like.PlaceholderRefusedAsWritten | src/app/api/posts/like/route.ts:25-48 | A like of an unknown postId is refused as written. The intended handler stores the placeholder with one like by that user and reports it liked. |
| Like.LikeIsIdempotent | src/app/api/posts/like/route.ts:43-60 | For a post naming its author, a second identical like changes no record, sends no second notification and gives the same answer. The user is reported as liking. |
| Like.UnlikeIsIdempotent | src/app/api/posts/like/route.ts:62-66 | A second identical unlike changes nothing, and the user is reported as not liking. |
| Like.ToggleEffect | src/app/api/posts/like/route.ts:43-68 | A like by a new user adds one like and appends the user. An unlike by a member gives max(0, likes-1) and drops only that user. Every other action, or a like or unlike that does not apply, leaves the record as it was. Retweets and replies never change. Afterwards the user is a member exactly when the action was like, or was neither like nor unlike and the user already was. |
| Like.ToggleKeepsLikedByDistinct | src/app/api/posts/like/route.ts:45-65 | likedBy never gains a duplicate. |
| Like.ToggleTracksMembership | src/app/api/posts/like/route.ts:45-65 | On a duplicate-free list with at least one like, a toggle moves the counter and the member count by the same amount: likes - \|likedBy\| is invariant. |
| Like.ToggleKeepsCountExact | src/app/api/posts/like/route.ts:45-65 | A record whose counter equals its member count keeps that property under every toggle. |
| Like.LikeThenUnlikeRestores | src/app/api/posts/like/route.ts:43-66 | A like by a new user followed by that user's unlike restores both the counter and the member list. |
| Like.NotifiesOnlyOnEffectiveLike | src/app/api/posts/like/route.ts:45-60 | A 'like' notification addressed to the post's authorHandle is put in front exactly on an effective like. No other request changes the notifications. An effective like of a record without an author is a 500, and every other valid request succeeds. |
| Like.StatusAfterToggle | src/app/api/posts/like/route.ts:70-77 | Whenever the toggle succeeds, reading the like status afterwards gives the toggle's own answer. |
| Like.StatusDefaults | src/app/api/posts/like/route.ts:106-124 | An unknown post reads as 0 likes and not liked. A read without a user is never liked. |
| Comments.AddComment | src/app/api/posts/comment/route.ts:17-72 | A missing postId, userId or content, or content over 500 characters, is a 400, so 500 characters are accepted. An acceptable comment fails with 500 exactly when the post is unknown or names no author, because the notification to that author cannot be created. On success the comment is put in front of the stored ones, the post record changes only in replies raised by 1, one notification is put in front, and users and statistics are untouched. |
| Comments.UnauthoredPostFailsAfterWrites | src/app/api/posts/comment/route.ts:31-72 | A comment on an unknown or authorless post is answered 500, yet the comment was already stored and the reply counter raised; an unknown post is created with 1 reply. No notification is stored. |
| Comments.NewCommentDefaults | src/app/api/posts/comment/route.ts:31-40 | Missing userName, userHandle and userAvatar get 'Người dùng ẩn danh', '@anonymous' and the avatar seeded with userId. A new comment starts with 0 likes and empty likedBy, and meets the comment schema. |
| Comments.AddCommentNotifiesAuthor | src/app/api/posts/comment/route.ts:50-64 | An acceptable comment on a post naming its author succeeds and puts exactly one unread 'comment' notification in front, addressed to that author, naming the post and the commenter, with the fallback name 'Someone'. |
| Comments.AddCommentKeepsNewestFirst | src/app/api/posts/comment/route.ts:31-64 | A comment and notification stamped with the current tick keep the stored comments and notifications newest first. |
| Comments.OfPost | src/app/api/posts/comment/route.ts:102 | Selects exactly the comments of the given post, drawn from the stored ones. |
| Comments.ListComments | src/app/api/posts/comment/route.ts:89-119 | Without postId it is a 400. Otherwise it returns at most limit comments of that post. Entry k is the post's comment at position (page-1)*limit + k in newest-first order. total counts all of the post's comments and totalPages is ceil(total/limit). |
| Comments.OfPostNewestFirst | src/app/api/posts/comment/route.ts:102-105 | When the store is newest first, so is each post's listing. |
| Comments.FindComment | src/app/api/posts/comment/route.ts:149 | Gives the first comment with the identifier, or -1 exactly when no comment has it. |
| Comments.DeleteComment | src/app/api/posts/comment/route.ts:142-176 | A missing commentId or userId is a 400, an unknown comment a 404, and another user's comment a 403, in that order; none of them changes anything. The owner's delete always succeeds and removes only that comment. The post record changes only in replies, lowered by exactly 1 with no floor, and no other record changes. |
| Comments.AddThenDeleteRestores | src/app/api/posts/comment/route.ts:44-48 | A comment added and then deleted by its author leaves the comments and the posts as they were. |
| Stats.RecordAction | src/app/api/stats/route.ts:94-146 | The call fails with 400 exactly when odId or sessionId is missing. Otherwise only the visitor's record changes, created on first sight. The record keeps the latest sessionId and the current time whatever the action, and the answer is the stored record. |
| Stats.GetUserStats | src/app/api/stats/route.ts:50-75 | Without odId it is a 400. A known visitor gets the stored record. An unknown visitor gets zero counters and no topics. |
| Stats.Global | src/app/api/stats/route.ts:21-44 | totalPosts and totalComments count the documents, and an empty collection gives zero sums. |
| Stats.ActionEffect | src/app/api/stats/route.ts:119-137 | like, comment and retweet each raise only their own counter by 1. unlike gives max(0, totalLikes-1). explore appends a non-empty topic only when it is new, keeping the earlier ones in front. Any other action changes no counter and no topic. |
| Stats.ActionKeepsInvariant | src/app/api/stats/route.ts:119-137 | Counters that start non-negative stay so, and topicsExplored stays duplicate-free. |
| Stats.LikeUnlikeAndExploreTwice | src/app/api/stats/route.ts:120-136 | A like then an unlike restores a record with a non-negative like counter. Exploring a topic twice equals exploring it once. |
| Stats.ReadAfterRecord | src/app/api/stats/route.ts:57-75 | A read after a recorded action returns the record the action answered with. |
| Stats.FirstVisit | src/app/api/stats/route.ts:104-116 | A first-time visitor's record is the one action applied to zero counters and an empty topic list. |
| Stats.ReturningVisit | src/app/api/stats/route.ts:104-141 | A returning visitor's stored counters move by the action: like +1, unlike -1 with a floor of 0, comment and retweet +1. Explore adds a given topic once at the end, and every other action changes no counter or topic. |
| Stats.SumsAdd | src/app/api/stats/route.ts:23-28 | The like and retweet totals split over any division of the posts. |
| Stats.SumsIgnoreOrder | src/app/api/stats/route.ts:23-28 | Two listings of the same posts, in any order, give the same like and retweet totals. |
| Posts.SortFieldOf | src/app/api/posts/route.ts:18-54 | 'retweets', 'replies' and 'newest' select their own field. Every other value, including an absent one, sorts by likes. |
| Posts.Insert | src/app/api/posts/route.ts:57 | Inserting into a sorted sequence keeps it sorted and adds exactly that post. |
| Posts.SortPosts | src/app/api/posts/route.ts:56-57 | The result is a permutation of the matched posts, ordered by the sort field, largest first. |
| Posts.ToSocialPost | src/app/api/posts/route.ts:64-81 | The feed post copies postId as id, the author, content, timestamp, the three counters, the type and the topic, and is always verified. |
| Posts.AvatarSeed | src/app/api/posts/route.ts:69 | A handle written '@name' seeds its avatar with 'name'. |
| Posts.ListPosts | src/app/api/posts/route.ts:16-98 | The listing is a 500 exactly when a post on the requested page names no author, because rendering its handle throws. Otherwise at most limit posts are shown, and entry k is the sorted result's post at (page-1)*limit + k. pagination is page, limit, the number matched and ceil(total/limit). |
| Posts.AuthoredListsSucceed | src/app/api/posts/route.ts:64-81 | When every matched post names its author, every page is answered. |
| Posts.ListedInOrder | src/app/api/posts/route.ts:38-59 | On an answered page, every post shown is one of the matched posts. By likes, retweets or replies, the shown counter never increases down the page. |
| Posts.EveryPostListed | src/app/api/posts/route.ts:20 | Each matched post belongs to page i/limit+1, which is within totalPages. If that page is answered, the post is shown there at position i mod limit. A post without an author makes its page a 500. |
| Posts.ParsePostType | src/models/Post.ts:58-62 | Accepts exactly 'post', 'reply' and 'news', with an absent type read as 'post'. |
| Posts.Create | src/app/api/posts/route.ts:110-138 | The call fails exactly when postId or content is missing (400), or when the type is outside the enumeration or the postId is already taken (500). Otherwise only the new post is stored. |
| Posts.CreatePost | src/app/api/posts/route.ts:106-146 | Fails exactly when postId or content is missing (400), or the type is outside the enumeration or the postId is taken (500). A success stores the post under its new postId and changes nothing else in the store. |
| Posts.CreatedPostDefaults | src/app/api/posts/route.ts:120-133 | Missing topic, authorName, authorHandle, timestamp and type become 'General', 'Người dùng', '@user', the current time and 'post'. The counters start at 0 and the lists empty, and every required field of the schema is present. |
| Posts.CreateTwiceFails | src/models/Post.ts:27-32 | Creating the same postId again fails with a 500, because postId is unique. |
| Posts.CreatePostDropsImage | src/app/api/posts/route.ts:111 | A request carrying an image URL creates a post without one. |
| Posts.CreatePostKeepingImage | src/app/api/posts/route.ts:120-133 | The corrected creation stores the request's image URL. |
| Posts.KeepingImageOnlyAddsImage | src/app/api/posts/route.ts:120-133 | The corrected creation fails exactly when the original does, and otherwise creates the same post plus the image. |
| Notifications.Select | src/app/api/notifications/route.ts:27-31 | Selects exactly the visitor's notifications, only the unread ones with unreadOnly, and nothing else. |
| Notifications.CountUnread | src/app/api/notifications/route.ts:39 | Is zero exactly when every notification of the visitor is read. |
| Notifications.ListNotifications | src/app/api/notifications/route.ts:19-53 | Without odId it is a 400. Otherwise it returns at most limit of the visitor's selected notifications, at positions (page-1)*limit + k. unreadCount counts all of the visitor's unread ones whatever the page and filter. totalPages is ceil(total/limit). |
| Notifications.UnreadCountIsUnreadTotal | src/app/api/notifications/route.ts:38-39 | The unread count equals the total of the unread-only listing. |
| Notifications.ParseKind | src/models/Notification.ts:36 | Accepts exactly like, comment, retweet, mention, follow and system. |
| Notifications.CreateNotification | src/app/api/notifications/route.ts:74-98 | Missing userId, type, title or message is a 400. A type outside the enumeration fails validation, a 500. Otherwise the notification is put in front and starts unread. titleEn and messageEn default to title and message, and the schema's required fields are present. |
| Notifications.CreatedIsListedFirst | src/app/api/notifications/route.ts:33-39 | A created notification heads its addressee's listing and raises their unread count by one. |
| Notifications.CreateKeepsNewestFirst | src/app/api/notifications/route.ts:81-93 | Creation keeps the store newest first. |
| Notifications.MarkEach | src/app/api/notifications/route.ts:126-138 | Marks a notification read exactly when it is the visitor's and either markAllRead is set or its id is listed. Every other notification is unchanged. |
| Notifications.MarkRead | src/app/api/notifications/route.ts:119-146 | Without odId it is a 400. Otherwise only isRead changes, and only on the notifications the request targets. The answer is the visitor's unread count afterwards. |
| Notifications.MarkAllLeavesNoneUnread | src/app/api/notifications/route.ts:126-140 | With markAllRead, whatever ids are also sent, the answered unread count is 0. |
| Notifications.MarkNeverRaisesUnread | src/app/api/notifications/route.ts:132-137 | Marking never raises an unread count and leaves every other visitor's count as it was. |
| Notifications.MarkIsIdempotent | src/app/api/notifications/route.ts:126-140 | Repeating a mark request changes nothing and answers the same. |
| Notifications.Others | src/app/api/notifications/route.ts:177 | Keeps exactly the notifications addressed to someone else. |
| Notifications.FirstMatch | src/app/api/notifications/route.ts:179 | The position of the first notification with that id addressed to the visitor, or -1 exactly when there is none. |
| Notifications.WithoutFirst | src/app/api/notifications/route.ts:179 | Without a match nothing changes. Otherwise exactly the first notification with that id addressed to the visitor is removed, and the rest keep their order. |
| Notifications.DeleteNotifications | src/app/api/notifications/route.ts:169-185 | Without odId it is a 400. deleteAll leaves none of the visitor's notifications. A request without deleteAll or an id changes nothing. |
| Notifications.DeleteKeepsOthers | src/app/api/notifications/route.ts:176-180 | No delete request removes or reorders another visitor's notifications. |
| Notifications.DeleteAllEmptiesListing | src/app/api/notifications/route.ts:176-177 | After deleteAll, the visitor's listing is empty and nothing is unread. |
| Auth.Insert | src/models/User.ts:38-44 | Creating a user fails (500) exactly when the stored handle is empty or the email or handle is already taken. Otherwise only the user is appended. |
| Auth.Register | src/app/api/auth/register/route.ts:16-74 | The checks run in order: missing field (400), password under 6 (400), lower-cased email taken (400), lower-cased handle taken (400). It fails exactly when one of these holds or the stored handle is empty or taken (500), so every other registration succeeds. A success appends the new user and changes nothing else. |
| Auth.RegisterNormalized | src/app/api/auth/register/route.ts:40-53 | The corrected registration checks the handle as it will be stored. It fails exactly on a missing field, a short password, a taken email, or a stored handle that is empty (500) or taken (400). A success appends the user and changes nothing else. |
| Auth.RegisterKeepsIdentitiesUnique | src/models/User.ts:21-53 | Both versions keep emails and handles unique, and a new user meets the user schema. |
| Auth.RegisteredUserDefaults | src/app/api/auth/register/route.ts:49-68 | A new user has the lower-cased email, a non-empty handle of [a-z0-9_] only, an empty bio and isVerified false. The answer is every field but the password. |
| Auth.FindByEmail | src/app/api/auth/login/route.ts:24 | Gives the first user with the email, or none exactly when no user has it. |
| Auth.Login | src/app/api/auth/login/route.ts:16-56 | Missing email or password is a 400, and every other failure is the same 401. Success happens exactly when the first user with the lower-cased email has that password, and returns that user without the password. |
| Auth.LoginAfterRegister | src/app/api/auth/login/route.ts:24-50 | A just-registered user logs in with the same email and password and gets the same user object. |
| Auth.LoginFailuresAlike | src/app/api/auth/login/route.ts:26-39 | An unknown email and a wrong password get the same answer. |
| Auth.HandleCheckMissesFilteredCollision | src/app/api/auth/register/route.ts:40-53 | Handle 'a-b' against a stored 'ab' passes the duplicate check and is answered 500. The corrected version answers 400 'Handle already exists'. |
| Auth.VersionsAgreeOtherwise | src/app/api/auth/register/route.ts:40-53 | The two versions agree whenever the two handle checks agree. |
| Seed.InsertInOrder | src/app/api/seed/route.ts:48 | The ordered insert stores events in turn until one's key is already present. What it stored are exactly the first keys, each holding its event's post. |
| Seed.Seed | src/app/api/seed/route.ts:21-73 | Seeding succeeds exactly when the events' keys are distinct. The old posts are gone: the posts are exactly 'vn-'+id of each event, holding its post. count is the number of events. topics are the distinct event topics in first-occurrence order. A failure answers the driver's message and keeps the posts inserted before the duplicate. |
| Seed.Status | src/app/api/seed/route.ts:80-97 | totalPosts counts the posts and topics is exactly the stored topics that are present; `distinct` skips a record without one. The 'empty' message is shown exactly when there are no posts. |
| Seed.SeedThenStatus | src/app/api/seed/route.ts:38-40 | After seeding, the status reports one post per event and the events' non-empty topics. likes lie in [100000, 599999], retweets in [50000, 249999] and replies in [20000, 119999]. |
| Seed.CountedDistinct | src/app/api/seed/route.ts:29-30 | n events with n distinct keys have pairwise distinct keys. |
| Seed.KeysCount | src/app/api/seed/route.ts:29-30 | Events with distinct keys make as many keys as events. |
| Seed.TopicsOfEvents | src/app/api/seed/route.ts:53 | The topic list holds exactly the events' topics. |
| Seed.DuplicateFound | src/app/api/seed/route.ts:48 | If the insert stops early, the events do not have distinct keys. |
| Paging.TotalPages | src/app/api/posts/route.ts:90 | The least number of pages of limit items that holds total items. |
| Paging.PageOf | src/app/api/posts/comment/route.ts:100-105 | Holds min(limit, what remains after (page-1)*limit) items. Entry k is item (page-1)*limit + k. |
| Paging.ItemOnItsPage | src/app/api/notifications/route.ts:26-36 | Item i is entry i mod limit of page i/limit+1, and that page is within totalPages. |
| Paging.PagesWithinTotal | src/app/api/notifications/route.ts:50 | A page is empty exactly when it lies beyond totalPages. |
| Lists.Remove | src/app/api/posts/like/route.ts:65 | Keeps exactly the elements different from the removed one. |
| Lists.RemoveOne | src/app/api/posts/like/route.ts:65 | A one-element list loses its element exactly when it is the removed one. |
| Lists.RemoveAppend | src/app/api/posts/like/route.ts:65 | Removing from a concatenation removes from each part: the other elements stay, in order and with their repeats. |
| Lists.RemoveOnce | src/app/api/posts/like/route.ts:65 | On a duplicate-free list, removing a present element drops exactly one entry and stays duplicate-free. |
| Lists.AddIfAbsent | src/app/api/stats/route.ts:133-135 | The result holds the element, keeps the old list as its prefix, adds nothing else, and stays duplicate-free. |
| Lists.FirstsProperties | src/app/api/seed/route.ts:53 | The distinct list is duplicate-free, has the same elements, and orders them by first occurrence. |
| Lists.Distinct | src/app/api/seed/route.ts:53 | The one-pass set walk computes that distinct list. |
| Text.Contains | src/hooks/useFeedGenerator.ts:258 | True exactly when the keyword occurs at some position. |
| Text.TrimEmptyIffBlank | src/hooks/useFeedGenerator.ts:312 | A trimmed string is empty exactly when every character is white space. |
| Text.RemoveFirstAt | src/app/api/posts/route.ts:69 | A handle without '@' is kept. One that starts with '@' loses exactly that character. Otherwise exactly one '@' is removed. |
| Text.KeepHandleChars | src/app/auth/register/page.tsx:108 | The result holds only [a-z0-9_] characters, and exactly those of the input. |
| Text.KeepHandleCharsOne | src/app/auth/register/page.tsx:108 | A single character survives the filter exactly when it is in [a-z0-9_]. |
| Text.KeepHandleCharsAppend | src/app/auth/register/page.tsx:108 | Filtering a concatenation filters each part, so the kept characters stay in order and with their repeats. |
| Text.KeepHandleCharsFixed | src/app/auth/register/page.tsx:108 | Filtering leaves a string unchanged exactly when it already holds only [a-z0-9_]. |
| Feed.Group | src/hooks/useFeedGenerator.ts:255-277 | The default group is chosen exactly when no keyword occurs. Otherwise the group is that of the first rule, in the fixed priority order, whose keyword occurs. |
| Feed.FirstMatchWins | src/hooks/useFeedGenerator.ts:258-275 | A topic naming keywords of two periods gets the group listed first. |
| Feed.DefaultTopicGetsDefault | src/hooks/useFeedGenerator.ts:421 | The topic 'default' matches no keyword and gets the default list. |
| Feed.GenerateFeed | src/hooks/useFeedGenerator.ts:311-378 | A blank topic sets one error state. Any other topic sets loading and then success or error. In mock mode it ends in success with the topic's mock group. Every state set pairs error with a message and empty data, and a missing message with a non-error status. |
| Feed.Settled | src/hooks/useFeedGenerator.ts:328-376 | The state a non-blank topic ends in is a coherent success or error, and in mock mode the topic's mock group. |
| Feed.GenerateFeedOutcome | src/hooks/useFeedGenerator.ts:349-376 | Outside mock mode the posts found are shown, and the topic's mock group when none are. A response that is not ok gives 'API error: code', and a thrown error gives its message. The outcome is an error exactly when no answer was parsed. |
| Feed.MockModeByGroup | src/hooks/useFeedGenerator.ts:329-339 | In mock mode two topics with the same keyword group produce the same states. |
| Feed.LoadAllPosts | src/hooks/useFeedGenerator.ts:383-428 | Loading first, then never an error. An empty or unsuccessful answer ends idle, and a failure ends in success. |
| Feed.LoadFailureShowsDefault | src/hooks/useFeedGenerator.ts:418-426 | A failed load shows the default mock list. |
| Feed.ResetFeed | src/hooks/useFeedGenerator.ts:433-439 | Gives the idle state with no data and no error. |
| Language.Toggle | src/contexts/LanguageContext.tsx:18-20 | Always switches to the other language. |
| Language.T | src/contexts/LanguageContext.tsx:22-24 | Gives the Vietnamese text exactly in Vietnamese and the English text otherwise. |
| Language.ToggleInvolution | src/contexts/LanguageContext.tsx:19 | Toggling twice restores the language, and a toggle swaps which text t picks. |
| Language.TogglesFromInitial | src/contexts/LanguageContext.tsx:16-20 | Starting from Vietnamese, n toggles show English exactly when n is odd. |
| PhotoPost.TypeText | src/components/PhotoPostModal.tsx:84-85 | The text area keeps the input when it is at most 280 characters and its first 280 characters otherwise. Nothing else in the form changes. |
| PhotoPost.SelectPhotos | src/components/PhotoPostModal.tsx:39-49 | No files change nothing. Otherwise the photos are a prefix of old plus new, min(old+new, 4) long, each with its own preview. |
| PhotoPost.RemovePhoto | src/components/PhotoPostModal.tsx:51-60 | Removing a valid index shortens the photos by one, keeps the content, and keeps photos and previews paired. |
| PhotoPost.RemoveKeepsPairs | src/components/PhotoPostModal.tsx:51-60 | Every other photo keeps its own preview, in the original order. |
| PhotoPost.HandlePost | src/components/PhotoPostModal.tsx:62-72 | A post happens exactly when canPost holds, and then the form is cleared. Otherwise nothing changes. |
| PhotoPost.CanPostIffContent | src/components/PhotoPostModal.tsx:121 | canPost holds exactly when the text is not blank or a photo is attached. |
| PhotoPost.Remaining | src/components/PhotoPostModal.tsx:121-123 | The budget plus the text length is 280, and it is negative exactly when the text is over 280. On a valid form it lies in [0, 280]. |
| PhotoPost.StepsKeepValid | src/components/PhotoPostModal.tsx:39-85 | Typing, selecting, removing and posting keep at most four photos, each paired with one preview, and at most 280 characters of text. |
| PhotoPost.SelectKeepsEarliest | src/components/PhotoPostModal.tsx:43 | Selection keeps the chosen photos in front and adds new ones in order while there is room. |
| Compose.Type | src/components/ComposeModal.tsx:234 | The text keeps the first 500 characters typed, the whole input when it fits, and no other field changes. |
| Compose.Remaining | src/components/ComposeModal.tsx:54-55 | The counter plus the text length is 500, and it is within [0, 500] for a text the form holds. |
| Compose.SelectImage | src/components/ComposeModal.tsx:57-75 | An image over 5·1024·1024 bytes is refused with a message and leaves the image unchanged. Any other image is kept. |
| Compose.Submit | src/components/ComposeModal.tsx:85-169 | Blank text is reported before a missing login. A request is sent exactly when the text is not blank, a user is signed in, and there is no image or its upload succeeded. The body carries the uploaded URL. The form closes and clears exactly when the post succeeded. Otherwise only a non-empty error changes. |
| Compose.Send | src/components/ComposeModal.tsx:135-164 | A successful post clears and closes the form. A refused post shows the server's error when one is given. |
| Compose.EditsKeepValid | src/components/ComposeModal.tsx:54-83 | Typing and choosing or removing an image keep the text within 500 characters. |
| Compose.SentBodyIsAccepted | src/components/ComposeModal.tsx:138-147 | A body the form sends passes the server's required-field and type checks, so it fails only on a postId already taken. |
| Compose.UploadedImageNotStored | src/components/ComposeModal.tsx:146 | The uploaded URL is sent, but the server stores the post without it. The corrected creation keeps it. |
| RegisterPage.HandleInput | src/app/auth/register/page.tsx:108 | The handle field holds the lower-cased input with every character outside [a-z0-9_] dropped, so only such characters. Input already in that form is kept as is. |
| RegisterPage.Submit | src/app/auth/register/page.tsx:30-47 | A confirmation mismatch is reported before a short password. The form is sent exactly when both checks pass, and then with the four fields. |
| RegisterPage.FailureMessage | src/app/auth/register/page.tsx:52 | The shown message is never empty, and it is the server's error when one is given. |
| RegisterPage.SentPasswordLongEnough | src/app/auth/register/page.tsx:40-47 | A form the page sends never meets the server's short-password refusal. |
| RegisterPage.PageHandleAgreesWithStored | src/app/auth/register/page.tsx:108 | A handle typed through the page is what the server stores, so the as-written and corrected registrations agree for it. |

## Left out

- Database I/O, connection handling and the driver's error paths are left out. Each handler is one atomic step on `Store.Db`, with no concurrency and no lost updates between requests. The 500 answers for exceptions are modelled only where a model-visible condition throws: a duplicate key, an enumeration mismatch, an empty required handle, a duplicate seed key, a notification to a post record without an author, and the rendering of such a record in the listing.
- The global top-topics aggregation (src/app/api/stats/route.ts:31-35) is left out because it is a database pipeline. `Stats.Global` keeps the counts and the sums.
- The regular-expression `topic` and `search` filters of GET /api/posts are left out. The listing takes the matched documents as its argument.
- `parseInt` is left out: `page` and `limit` are taken as numbers of at least 1, and NaN and negative values are not modelled.
- Ties in sort order are left out: the database orders equal keys in an unspecified way, and the model fixes one such order.
- Mongoose schema validation and `trim`/`lowercase` casting on save are left out. The schema rules are predicates in `Records` that the lemmas prove of created records.
  - The comment upsert creates a post record without an author. The handler then creates a notification whose `userId` is that missing author, which validation refuses, so the request is answered 500. The model answers the same 500.
- `toLowerCase` is an abstract function; no Unicode case mapping is modelled.
- Lengths are counted in code points; JavaScript's UTF-16 `length` is not modelled.
- Clocks, `Date.now`, object identifiers, `Math.random` and `URL.createObjectURL` are parameters, and so are:
  - the bundled events file and mock posts;
  - the results of the upload and post calls;
  - the feed `fetch` outcome;
  - the seed driver's error message.
- The delays of the feed hook's mock mode are left out.
- The feed hook assumes a successful answer always carries a `data` array; a body whose `data` is missing (a `TypeError`) is not modelled.
- The Groq calls, the constant `/api/generate` stub, Cloudinary and the upload route are left out as external services. Upload outcomes are a parameter of `Compose.Submit`.
- Number formatting with `toFixed` is left out.
- Login and register context storage (localStorage in AuthContext) is left out.
- UI-only pages and components, and the HTML `required` attribute of form inputs, are left out.
- Comments.AddComment: the 500 for an unknown or authorless post comes after the comment and the reply counter were written. A `Fail` value carries no store, so these writes are stated separately, by `Comments.CommentWrites` and `Comments.UnauthoredPostFailsAfterWrites`.
- Like.ToggleLike: `post.save()` also validates the stored record, so a record the comment upsert created (no topic, author or content) may be refused there for any action. The model refuses it only where its notification cannot be created, on an effective like.
- Stats.Global: the like and retweet sums are stated through `SumsAdd` and `SumsIgnoreOrder` rather than against a closed formula, since the aggregation order is unspecified.
- Stats.RecordAction: the answered record is shown to meet the statistics schema only for a store whose records sit under their own `odId` (`Store.Keyed`). The map model also admits stores where this does not hold.

## Findings

| source | as written | input that shows it | evidently intended | confidence | as-written member | corrected member |
|---|---|---|---|---|---|---|
| src/app/api/posts/route.ts:111 | POST /api/posts reads postId, topic, authorName, authorHandle, content, timestamp and type, but not the imageUrl that the compose form sends (src/components/ComposeModal.tsx:146). A post created with an uploaded image is stored without it. | A request with content "x", postId "user-1" and imageUrl "https://img/1" creates a post whose imageUrl is null. | The created post stores the uploaded image URL, which the post schema has a field for. | not executed | Posts.CreatePostDropsImage | Posts.KeepingImageOnlyAddsImage |
| src/app/api/auth/register/route.ts:40 | The duplicate-handle check looks up `handle.toLowerCase()`, while line 53 stores the handle lower-cased and filtered to [a-z0-9_]. A handle differing from a taken one only in filtered characters passes the check and then collides at the unique index, giving a 500. | Handle "a-b" when a user with handle "ab" exists: the answer is 500 'Server error' instead of 400 'Handle already exists'. | The duplicate check uses the handle as it will be stored. | not executed | Auth.HandleCheckMissesFilteredCollision | Auth.RegisterNormalized |
| src/app/api/posts/like/route.ts:32 | The placeholder for an unknown postId is created with `content: ''`. The post schema requires content (src/models/Post.ts:50-53), so `Post.create` throws and every like or unlike of an unknown postId is answered 500. | A like with postId "static-1", which the store does not hold: the answer is 500 'Server error' instead of 1 like. | The placeholder is stored, so that posts shown from static content can be liked, as the handler's comment at line 25 says. | not executed | Like.PlaceholderRefusedAsWritten | Like.ToggleLike |

=== FILE: auth.dfy ===
/** POST /api/auth/register and POST /api/auth/login over the users
    collection. Passwords are stored and compared as given.

    `lower` stands for `String.prototype.toLowerCase`: the model does not
    define case mapping, and no property here depends on what it does. */
module Auth {

  import opened Common
  import opened Records
  import opened Store
  import Text

  datatype RegisterRequest = RegisterRequest(email: string, password: string, name: string, handle: string)

  /** The user object both handlers answer with: every field but the
      password. */
  datatype UserView = UserView(id: string, email: string, name: string, handle: string,
                               avatarUrl: string, bio: string, isVerified: bool)

  const FillAll: string := "Vui lòng điền đầy đủ thông tin / Please fill all fields"
  const ShortPassword: string := "Mật khẩu phải có ít nhất 6 ký tự / Password must be at least 6 characters"
  const EmailTaken: string := "Email đã được sử dụng / Email already exists"
  const HandleTaken: string := "Handle đã được sử dụng / Handle already exists"
  const ServerFailure: string := "Lỗi server / Server error"
  const MissingCredentials: string := "Vui lòng nhập email và mật khẩu / Please enter email and password"
  const BadCredentials: string := "Email hoặc mật khẩu không đúng / Invalid email or password"

  function View(u: User): (v: UserView)
    ensures v.id == u.id && v.email == u.email && v.name == u.name && v.handle == u.handle
  {
    UserView(u.id, u.email, u.name, u.handle, u.avatarUrl, u.bio, u.isVerified)
  }

  predicate EmailInUse(users: seq<User>, email: string) {
    exists i :: 0 <= i < |users| && users[i].email == email
  }

  predicate HandleInUse(users: seq<User>, handle: string) {
    exists i :: 0 <= i < |users| && users[i].handle == handle
  }

  /** No two users share an email or a handle (the schema's unique indexes). */
  predicate UniqueIdentities(users: seq<User>) {
    forall i, j :: 0 <= i < j < |users| ==> users[i].email != users[j].email && users[i].handle != users[j].handle
  }

  /** `handle.toLowerCase().replace(/[^a-z0-9_]/g, '')`: the handle as stored. */
  function StoredHandle(handle: string, lower: string -> string): string {
    Text.KeepHandleChars(lower(handle))
  }

  /** The user document a registration creates. */
  function NewUser(req: RegisterRequest, lower: string -> string, env: Env): User {
    User(env.freshId, lower(req.email), req.password, req.name,
         StoredHandle(req.handle, lower), AvatarBase + req.handle, "", false)
  }

  /** Every field of the registration form is given. */
  predicate Filled(req: RegisterRequest) {
    Given(req.email) && Given(req.password) && Given(req.name) && Given(req.handle)
  }

  /** The insertion of a new user, as the schema and its unique indexes
      allow it: an empty stored handle fails `required` and a stored handle
      or email already in use fails the unique index; both throw, and the
      handler answers 500. */
  function Insert(db: Db, u: User): (r: Result<Reply<UserView>>)
    ensures r.Fail? <==> !Given(u.handle) || EmailInUse(db.users, u.email) || HandleInUse(db.users, u.handle)
    ensures r.Fail? ==> r == Fail(ServerError, ServerFailure)
    ensures r.Ok? ==> r.value == Reply(db.(users := db.users + [u]), View(u))
  {
    if !Given(u.handle) || EmailInUse(db.users, u.email) || HandleInUse(db.users, u.handle) then
      Fail(ServerError, ServerFailure)
    else Ok(Reply(db.(users := db.users + [u]), View(u)))
  }

  /** POST /api/auth/register as written: the duplicate-handle check looks
      for the lower-cased handle, while the document stores the filtered
      one. */
  function Register(db: Db, req: RegisterRequest, lower: string -> string, env: Env): (r: Result<Reply<UserView>>)
    ensures !Filled(req) ==> r == Fail(BadRequest, FillAll)
    ensures Filled(req) && |req.password| < MinPasswordLength ==> r == Fail(BadRequest, ShortPassword)
    ensures (Filled(req) && |req.password| >= MinPasswordLength && EmailInUse(db.users, lower(req.email)))
      ==> r == Fail(BadRequest, EmailTaken)
    ensures (Filled(req) && |req.password| >= MinPasswordLength && !EmailInUse(db.users, lower(req.email))
             && HandleInUse(db.users, lower(req.handle)))
      ==> r == Fail(BadRequest, HandleTaken)
    ensures r.Fail? && r.status == ServerError ==>
      StoredHandle(req.handle, lower) == "" || HandleInUse(db.users, StoredHandle(req.handle, lower))
    ensures r.Fail? <==>
      || !Filled(req) || |req.password| < MinPasswordLength
      || EmailInUse(db.users, lower(req.email)) || HandleInUse(db.users, lower(req.handle))
      || StoredHandle(req.handle, lower) == "" || HandleInUse(db.users, StoredHandle(req.handle, lower))
    ensures r.Ok? ==>
      && r.value.db.users == db.users + [NewUser(req, lower, env)]
      && r.value.db.posts == db.posts && r.value.db.comments == db.comments
      && r.value.db.notifications == db.notifications && r.value.db.stats == db.stats
      && !EmailInUse(db.users, lower(req.email))
      && !HandleInUse(db.users, lower(req.handle))
      && !HandleInUse(db.users, StoredHandle(req.handle, lower))
  {
    if !Filled(req) then Fail(BadRequest, FillAll)
    else if |req.password| < MinPasswordLength then Fail(BadRequest, ShortPassword)
    else if EmailInUse(db.users, lower(req.email)) then Fail(BadRequest, EmailTaken)
    else if HandleInUse(db.users, lower(req.handle)) then Fail(BadRequest, HandleTaken)
    else Insert(db, NewUser(req, lower, env))
  }

  /** POST /api/auth/register with the duplicate-handle check made on the
      handle as it will be stored. */
  function RegisterNormalized(db: Db, req: RegisterRequest, lower: string -> string, env: Env): (r: Result<Reply<UserView>>)
    ensures !Filled(req) ==> r == Fail(BadRequest, FillAll)
    ensures Filled(req) && |req.password| < MinPasswordLength ==> r == Fail(BadRequest, ShortPassword)
    ensures (Filled(req) && |req.password| >= MinPasswordLength && EmailInUse(db.users, lower(req.email)))
      ==> r == Fail(BadRequest, EmailTaken)
    ensures (Filled(req) && |req.password| >= MinPasswordLength && !EmailInUse(db.users, lower(req.email))
             && HandleInUse(db.users, StoredHandle(req.handle, lower)))
      ==> r == Fail(BadRequest, HandleTaken)
    ensures r.Fail? && r.status == ServerError ==> StoredHandle(req.handle, lower) == ""
    ensures r.Fail? <==>
      || !Filled(req) || |req.password| < MinPasswordLength
      || EmailInUse(db.users, lower(req.email))
      || StoredHandle(req.handle, lower) == "" || HandleInUse(db.users, StoredHandle(req.handle, lower))
    ensures r.Ok? ==>
      && r.value.db.users == db.users + [NewUser(req, lower, env)]
      && r.value.db.posts == db.posts && r.value.db.comments == db.comments
      && r.value.db.notifications == db.notifications && r.value.db.stats == db.stats
  {
    if !Filled(req) then Fail(BadRequest, FillAll)
    else if |req.password| < MinPasswordLength then Fail(BadRequest, ShortPassword)
    else if EmailInUse(db.users, lower(req.email)) then Fail(BadRequest, EmailTaken)
    else if HandleInUse(db.users, StoredHandle(req.handle, lower)) then Fail(BadRequest, HandleTaken)
    else Insert(db, NewUser(req, lower, env))
  }

  /** Both versions keep emails and handles unique, and a registered user
      meets the schema's rules (given that lower-casing keeps a non-empty
      email non-empty). */
  lemma RegisterKeepsIdentitiesUnique(db: Db, req: RegisterRequest, lower: string -> string, env: Env)
    requires UniqueIdentities(db.users) && Given(lower(req.email))
    ensures var r := Register(db, req, lower, env);
      r.Ok? ==> UniqueIdentities(r.value.db.users) && UserSchemaOk(r.value.db.users[|db.users|])
    ensures var r := RegisterNormalized(db, req, lower, env);
      r.Ok? ==> UniqueIdentities(r.value.db.users) && UserSchemaOk(r.value.db.users[|db.users|])
  {
  }

  /** A registered user is stored with the lower-cased email, a non-empty
      handle of `[a-z0-9_]` characters only, an empty bio and no
      verification, and is answered with every field but the password. */
  lemma RegisteredUserDefaults(db: Db, req: RegisterRequest, lower: string -> string, env: Env)
    requires Register(db, req, lower, env).Ok?
    ensures var r := Register(db, req, lower, env).value;
      var u := r.db.users[|db.users|];
      && u.email == lower(req.email) && u.handle == StoredHandle(req.handle, lower)
      && Text.HandleOnly(u.handle) && Given(u.handle)
      && u.password == req.password && u.name == req.name
      && u.avatarUrl == AvatarBase + req.handle
      && u.bio == "" && !u.isVerified
      && r.body == View(u)
  {
  }

  /** The first user registered under an email, if any. */
  function FindByEmail(users: seq<User>, email: string): (r: Option<nat>)
    ensures r.None? <==> !EmailInUse(users, email)
    ensures r.Some? ==>
      && r.value < |users| && users[r.value].email == email
      && forall i :: 0 <= i < r.value ==> users[i].email != email
  {
    if users == [] then None
    else if users[0].email == email then Some(0)
    else
      match FindByEmail(users[1..], email)
      case None =>
        assert forall i :: 1 <= i < |users| ==> users[i] == users[1..][i - 1];
        None
      case Some(k) =>
        assert users[k + 1] == users[1..][k];
        Some(k + 1)
  }

  /** POST /api/auth/login. */
  function Login(db: Db, email: string, password: string, lower: string -> string): (r: Result<UserView>)
    ensures !Given(email) || !Given(password) ==> r == Fail(BadRequest, MissingCredentials)
    ensures r.Fail? && Given(email) && Given(password) ==> r == Fail(Unauthorized, BadCredentials)
    ensures r.Ok? <==>
      Given(email) && Given(password)
      && exists i :: 0 <= i < |db.users| && db.users[i].email == lower(email) && db.users[i].password == password
                     && forall j :: 0 <= j < i ==> db.users[j].email != lower(email)
    ensures r.Ok? ==>
      var i := FindByEmail(db.users, lower(email));
      i.Some? && r.value == View(db.users[i.value])
  {
    if !Given(email) || !Given(password) then Fail(BadRequest, MissingCredentials)
    else
      match FindByEmail(db.users, lower(email))
      case None => Fail(Unauthorized, BadCredentials)
      case Some(i) =>
        var u := db.users[i];
        if u.password != password then Fail(Unauthorized, BadCredentials)
        else Ok(View(u))
  }

  /** A user who has just registered can log in with the same email and
      password and gets back the same user object. */
  lemma LoginAfterRegister(db: Db, req: RegisterRequest, lower: string -> string, env: Env)
    requires Register(db, req, lower, env).Ok?
    ensures var r := Register(db, req, lower, env).value;
      Login(r.db, req.email, req.password, lower) == Ok(r.body)
  {
    var r := Register(db, req, lower, env).value;
    var n := |db.users|;
    assert r.db.users[n] == NewUser(req, lower, env);
    assert forall j :: 0 <= j < n ==> r.db.users[j] == db.users[j];
    assert FindByEmail(r.db.users, lower(req.email)) == Some(n);
  }

  /** A wrong password and an unknown email get the same answer. */
  lemma LoginFailuresAlike(db: Db, email: string, password: string, lower: string -> string)
    requires Given(email) && Given(password)
    ensures !EmailInUse(db.users, lower(email)) ==> Login(db, email, password, lower) == Fail(Unauthorized, BadCredentials)
    ensures var i := FindByEmail(db.users, lower(email));
      i.Some? && db.users[i.value].password != password ==>
      Login(db, email, password, lower) == Fail(Unauthorized, BadCredentials)
  {
  }

  /** As written, a handle that differs from a taken one only in characters
      the filter drops passes the duplicate check and then collides at the
      unique index: "a-b" against a stored "ab" is answered 500 instead of
      the 400 'Handle already exists'. */
  lemma HandleCheckMissesFilteredCollision(env: Env)
    ensures var taken := User("u1", "x@y.z", "secret", "X", "ab", AvatarBase + "ab", "", false);
      var db := Db(map[], [], [], [taken], map[]);
      var req := RegisterRequest("p@q.r", "secret", "P", "a-b");
      var lower := (s: string) => s;
      && Register(db, req, lower, env) == Fail(ServerError, ServerFailure)
      && RegisterNormalized(db, req, lower, env) == Fail(BadRequest, HandleTaken)
  {
    var taken := User("u1", "x@y.z", "secret", "X", "ab", AvatarBase + "ab", "", false);
    var db := Db(map[], [], [], [taken], map[]);
    var lower := (s: string) => s;
    assert !Text.IsHandleChar('-');
    assert Text.KeepHandleChars("a-b") == "ab" by {
      assert "a-b"[1..] == "-b" && "-b"[1..] == "b" && "b"[1..] == "";
    }
    assert StoredHandle("a-b", lower) == "ab";
    assert !EmailInUse(db.users, "p@q.r") by {
      assert db.users[0].email == "x@y.z";
    }
    assert !HandleInUse(db.users, "a-b") by {
      assert db.users[0].handle == "ab";
    }
    assert HandleInUse(db.users, "ab") by {
      assert db.users[0].handle == "ab";
    }
  }

  /** The two versions agree except where the stored handle is already in
      use while the lower-cased one is not. */
  lemma VersionsAgreeOtherwise(db: Db, req: RegisterRequest, lower: string -> string, env: Env)
    requires HandleInUse(db.users, StoredHandle(req.handle, lower)) == HandleInUse(db.users, lower(req.handle))
    ensures Register(db, req, lower, env) == RegisterNormalized(db, req, lower, env)
  {
  }
}

=== FILE: comment.dfy ===
/** POST, GET and DELETE /api/posts/comment: adding a comment (with the
    post's reply counter raised by an upsert), listing a post's comments
    newest first with pagination, and owner-only deletion (with the reply
    counter lowered). */
module Comments {

  import opened Common
  import opened Records
  import opened Store
  import opened Paging

  datatype CommentRequest = CommentRequest(
    postId: string, userId: string, userName: string,
    userHandle: string, userAvatar: string, content: string)

  /** The `data` of a comment listing. */
  datatype CommentPage = CommentPage(comments: seq<Comment>, pagination: Pagination)

  const MissingFields: string := "postId, userId và content là bắt buộc / postId, userId and content are required"
  const TooLong: string := "Bình luận quá dài (tối đa 500 ký tự) / Comment too long (max 500 characters)"
  const MissingPostId: string := "postId là bắt buộc / postId is required"
  const MissingDeleteIds: string := "commentId và userId là bắt buộc / commentId and userId are required"
  const CommentNotFound: string := "Không tìm thấy bình luận / Comment not found"
  const NotOwner: string := "Không có quyền xóa / Not authorized to delete"
  const CommentDeleted: string := "Đã xóa bình luận / Comment deleted"
  const ServerFailure: string := "Lỗi máy chủ / Server error"

  const AnonymousName: string := "Người dùng ẩn danh"
  const AnonymousHandle: string := "@anonymous"

  /** The comment document a valid request creates, with the author fields
      defaulted. */
  function NewComment(req: CommentRequest, env: Env): Comment {
    Comment(env.freshId, req.postId, req.userId,
            OrElse(req.userName, AnonymousName),
            OrElse(req.userHandle, AnonymousHandle),
            OrElse(req.userAvatar, AvatarBase + req.userId),
            req.content, 0, [], env.clock)
  }

  /** The notification sent to the post's author about a new comment. */
  function CommentNotification(post: Post, req: CommentRequest, env: Env): Notification {
    Notification(env.freshId, post.authorHandle, CommentNote,
                 "Bình luận mới", "New Comment",
                 OrElse(req.userName, "Ai đó") + " đã bình luận về bài viết của bạn",
                 OrElse(req.userName, "Someone") + " commented on your post",
                 Some(req.postId), Some(req.userId),
                 Optional(req.userName), Optional(req.userAvatar), false, env.clock)
  }

  /** `findOneAndUpdate({ postId }, { $inc: { replies: 1 } }, { upsert: true })`:
      raise the counter, or insert a record with only `postId` and the
      schema defaults whose counter the increment sets to 1. */
  function BumpReplies(posts: map<string, Post>, postId: string, clock: nat): map<string, Post> {
    if postId in posts then posts[postId := posts[postId].(replies := posts[postId].replies + 1)]
    else posts[postId := PostWithDefaults(postId, clock).(replies := 1)]
  }

  /** The request passes the handler's own checks. */
  predicate Acceptable(req: CommentRequest) {
    Given(req.postId) && Given(req.userId) && Given(req.content) && |req.content| <= CommentMaxLength
  }

  /** The writes made before the notification: the comment is inserted and
      the post's reply counter raised, the post record created if needed.
      They stay in the store whatever happens afterwards. */
  function CommentWrites(db: Db, req: CommentRequest, env: Env): Db {
    db.(comments := [NewComment(req, env)] + db.comments, posts := BumpReplies(db.posts, req.postId, env.clock))
  }

  /** The post the comment is about names an author. The notification
      requires a non-empty `userId`, and a record the upsert has just created
      has no `authorHandle`, so without one `Notification.create` throws. */
  predicate AuthorKnown(db: Db, postId: string) {
    postId in db.posts && Given(db.posts[postId].authorHandle)
  }

  /** POST /api/posts/comment. A 500 is answered after the comment and the
      counter were written (`CommentWrites`); the `Fail` value does not
      carry that store. */
  function AddComment(db: Db, req: CommentRequest, env: Env): (r: Result<Reply<Comment>>)
    ensures r.Fail? <==> !Acceptable(req) || !AuthorKnown(db, req.postId)
    ensures !Acceptable(req) ==> r.Fail? && r.status == BadRequest
    ensures Acceptable(req) && !AuthorKnown(db, req.postId) ==> r == Fail(ServerError, ServerFailure)
    ensures r.Ok? ==>
      var after := r.value.db;
      var post := db.posts[req.postId];
      && after.comments == [r.value.body] + db.comments
      && r.value.body.postId == req.postId && r.value.body.userId == req.userId
      && r.value.body.content == req.content
      && after.posts == db.posts[req.postId := post.(replies := post.replies + 1)]
      && |after.notifications| == |db.notifications| + 1
      && after.notifications[1..] == db.notifications
      && after.notifications[0].userId == post.authorHandle
      && after.notifications[0].kind == CommentNote
      && after.users == db.users && after.stats == db.stats
  {
    if !Given(req.postId) || !Given(req.userId) || !Given(req.content) then
      Fail(BadRequest, MissingFields)
    else if |req.content| > CommentMaxLength then
      Fail(BadRequest, TooLong)
    else
      var written := CommentWrites(db, req, env);
      var post := written.posts[req.postId];
      if !Given(post.authorHandle) then Fail(ServerError, ServerFailure)
      else
        Ok(Reply(written.(notifications := [CommentNotification(post, req, env)] + db.notifications),
                 NewComment(req, env)))
  }

  /** A comment on a post the store does not know, or whose record names no
      author, is answered 500, yet the comment is stored and the counter
      raised (the record created with 1 replies when it was missing). */
  lemma UnauthoredPostFailsAfterWrites(db: Db, req: CommentRequest, env: Env)
    requires Acceptable(req) && !AuthorKnown(db, req.postId)
    ensures AddComment(db, req, env) == Fail(ServerError, ServerFailure)
    ensures var w := CommentWrites(db, req, env);
      && w.comments == [NewComment(req, env)] + db.comments
      && req.postId in w.posts
      && w.posts[req.postId].replies == (if req.postId in db.posts then db.posts[req.postId].replies + 1 else 1)
      && w.posts.Keys == db.posts.Keys + {req.postId}
      && w.notifications == db.notifications
  {
  }

  /** A new comment carries the documented defaults for missing author
      fields, starts with no likes, and meets the comment schema. */
  lemma NewCommentDefaults(db: Db, req: CommentRequest, env: Env)
    requires AddComment(db, req, env).Ok?
    ensures var c := AddComment(db, req, env).value.body;
      && c.userName == (if Given(req.userName) then req.userName else AnonymousName)
      && c.userHandle == (if Given(req.userHandle) then req.userHandle else AnonymousHandle)
      && c.userAvatar == (if Given(req.userAvatar) then req.userAvatar else AvatarBase + req.userId)
      && c.likes == 0 && c.likedBy == []
      && CommentSchemaOk(c)
  {
  }

  /** An acceptable comment on a post whose record names its author succeeds
      and notifies exactly that author, once, with the commenter's name or
      the fallback in the message. */
  lemma AddCommentNotifiesAuthor(db: Db, req: CommentRequest, env: Env)
    requires Acceptable(req) && AuthorKnown(db, req.postId)
    ensures var r := AddComment(db, req, env);
      && r.Ok?
      && var n := r.value.db.notifications[0];
      && n.userId == db.posts[req.postId].authorHandle && n.kind == CommentNote
      && n.messageEn == OrElse(req.userName, "Someone") + " commented on your post"
      && n.postId == Some(req.postId) && n.fromUserId == Some(req.userId) && !n.isRead
      && r.value.db.notifications[1..] == db.notifications
  {
  }

  /** A comment created at the current tick keeps the store newest first,
      and the clock stays ahead of everything stored. */
  lemma AddCommentKeepsNewestFirst(db: Db, req: CommentRequest, env: Env)
    requires NewestFirst(db) && ClockAhead(db, env) && AddComment(db, req, env).Ok?
    ensures var after := AddComment(db, req, env).value.db;
      NewestFirst(after) && ClockAhead(after, env)
  {
    var after := AddComment(db, req, env).value.db;
    CommentInFront(after.comments[0], db.comments, env.clock);
    NoteInFront(after.notifications[0], db.notifications, env.clock);
  }

  /** The comments of one post, in stored (newest-first) order. */
  function OfPost(cs: seq<Comment>, postId: string): (r: seq<Comment>)
    ensures forall c :: c in r <==> c in cs && c.postId == postId
    ensures |r| <= |cs|
  {
    if cs == [] then []
    else if cs[0].postId == postId then [cs[0]] + OfPost(cs[1..], postId)
    else OfPost(cs[1..], postId)
  }

  /** GET /api/posts/comment. */
  function ListComments(db: Db, postId: string, page: nat, limit: nat): (r: Result<CommentPage>)
    requires page >= 1 && limit >= 1
    ensures r.Fail? <==> !Given(postId)
    ensures r.Fail? ==> r.status == BadRequest
    ensures r.Ok? ==>
      && |r.value.comments| <= limit
      && (forall c :: c in r.value.comments ==> c in db.comments && c.postId == postId)
      && r.value.pagination.page == page && r.value.pagination.limit == limit
      && r.value.pagination.total == |OfPost(db.comments, postId)|
      && r.value.pagination.totalPages == TotalPages(r.value.pagination.total, limit)
      && (forall k :: 0 <= k < |r.value.comments| ==>
            Skip(page, limit) + k < r.value.pagination.total
            && r.value.comments[k] == OfPost(db.comments, postId)[Skip(page, limit) + k])
  {
    if !Given(postId) then Fail(BadRequest, MissingPostId)
    else
      var matching := OfPost(db.comments, postId);
      var shown := PageOf(matching, page, limit);
      assert forall c :: c in shown ==> c in matching;
      Ok(CommentPage(shown, MakePagination(page, limit, |matching|)))
  }

  /** Newest first: creation ticks never increase along the sequence. */
  predicate Descending(cs: seq<Comment>) {
    forall i, j :: 0 <= i < j < |cs| ==> cs[i].createdAt >= cs[j].createdAt
  }

  /** A post's comments come out newest first when the store keeps them so. */
  lemma {:induction false} OfPostNewestFirst(cs: seq<Comment>, postId: string)
    requires Descending(cs)
    ensures Descending(OfPost(cs, postId))
  {
    if cs != [] {
      DescendingTail(cs);
      OfPostNewestFirst(cs[1..], postId);
      var t := OfPost(cs[1..], postId);
      forall c | c in t ensures cs[0].createdAt >= c.createdAt {
        var k :| 0 <= k < |cs[1..]| && cs[1..][k] == c;
        assert cs[1..][k] == cs[k + 1];
      }
      if cs[0].postId == postId {
        DescendingCons(cs[0], t);
      }
    }
  }

  lemma DescendingTail(cs: seq<Comment>)
    requires cs != [] && Descending(cs)
    ensures Descending(cs[1..])
  {
    forall i, j | 0 <= i < j < |cs[1..]| ensures cs[1..][i].createdAt >= cs[1..][j].createdAt {
      assert cs[1..][i] == cs[i + 1] && cs[1..][j] == cs[j + 1];
    }
  }

  lemma DescendingCons(x: Comment, t: seq<Comment>)
    requires Descending(t) && forall c :: c in t ==> x.createdAt >= c.createdAt
    ensures Descending([x] + t)
  {
    var r := [x] + t;
    forall i, j | 0 <= i < j < |r| ensures r[i].createdAt >= r[j].createdAt {
      assert r[j] == t[j - 1] && r[j] in t;
      if i > 0 {
        assert r[i] == t[i - 1];
      }
    }
  }

  /** The index of the first comment with identifier `id` (`findById`), or -1. */
  function FindComment(cs: seq<Comment>, id: string): (r: int)
    ensures -1 <= r < |cs|
    ensures r == -1 <==> forall i :: 0 <= i < |cs| ==> cs[i].id != id
    ensures r >= 0 ==> cs[r].id == id && forall i :: 0 <= i < r ==> cs[i].id != id
  {
    if cs == [] then -1
    else if cs[0].id == id then 0
    else
      var t := FindComment(cs[1..], id);
      if t == -1 then -1 else t + 1
  }

  /** `findOneAndUpdate({ postId }, { $inc: { replies: -1 } })`, no upsert and
      no floor. */
  function DropReply(posts: map<string, Post>, postId: string): map<string, Post> {
    if postId in posts then posts[postId := posts[postId].(replies := posts[postId].replies - 1)]
    else posts
  }

  /** DELETE /api/posts/comment. */
  function DeleteComment(db: Db, commentId: string, userId: string): (r: Result<Reply<string>>)
    ensures !Given(commentId) || !Given(userId) ==> r == Fail(BadRequest, MissingDeleteIds)
    ensures Given(commentId) && Given(userId) && FindComment(db.comments, commentId) < 0 ==>
      r == Fail(NotFound, CommentNotFound)
    ensures (Given(commentId) && Given(userId) && FindComment(db.comments, commentId) >= 0
             && db.comments[FindComment(db.comments, commentId)].userId != userId) ==>
      r == Fail(Forbidden, NotOwner)
    ensures (Given(commentId) && Given(userId) && FindComment(db.comments, commentId) >= 0
             && db.comments[FindComment(db.comments, commentId)].userId == userId) ==>
      r.Ok? && r.value.body == CommentDeleted
    ensures r.Ok? ==>
      var i := FindComment(db.comments, commentId);
      var c := db.comments[i];
      && c.userId == userId && c.id == commentId
      && r.value.db.comments == db.comments[..i] + db.comments[i + 1..]
      && r.value.db.posts.Keys == db.posts.Keys
      && (c.postId in db.posts ==>
            r.value.db.posts[c.postId] == db.posts[c.postId].(replies := db.posts[c.postId].replies - 1))
      && (forall k :: k in db.posts && k != c.postId ==> r.value.db.posts[k] == db.posts[k])
      && r.value.db.notifications == db.notifications && r.value.db.users == db.users
      && r.value.db.stats == db.stats
  {
    if !Given(commentId) || !Given(userId) then Fail(BadRequest, MissingDeleteIds)
    else
      var i := FindComment(db.comments, commentId);
      if i < 0 then Fail(NotFound, CommentNotFound)
      else
        var c := db.comments[i];
        if c.userId != userId then Fail(Forbidden, NotOwner)
        else
          Ok(Reply(db.(posts := DropReply(db.posts, c.postId),
                       comments := db.comments[..i] + db.comments[i + 1..]), CommentDeleted))
  }

  /** A comment added and then deleted by its author leaves the comments and
      the posts as they were. */
  lemma AddThenDeleteRestores(db: Db, req: CommentRequest, env: Env)
    requires AddComment(db, req, env).Ok? && Given(env.freshId)
    ensures var added := AddComment(db, req, env).value.db;
      var r := DeleteComment(added, env.freshId, req.userId);
      && r.Ok?
      && r.value.db.comments == db.comments
      && r.value.db.posts == db.posts
  {
    var added := AddComment(db, req, env).value.db;
    assert FindComment(added.comments, env.freshId) == 0;
    assert added.comments[1..] == db.comments;
    var p := db.posts[req.postId];
    assert p.(replies := p.replies + 1).(replies := p.replies + 1 - 1) == p;
  }
}

=== FILE: common.dfy ===
/** Conventions shared by every route handler of the model: optional values,
    the error classes a handler answers with, and how request fields are read.

    A request field that the handler only tests with JavaScript truthiness
    (`!x`, `x || fallback`) is written as a `string` in which "" stands for
    both "absent" and "empty": the handlers cannot tell the two apart. */
module Common {

  datatype Option<+T> = None | Some(value: T)

  /** The HTTP error classes of the API, each with its status code. */
  datatype Status = BadRequest | Unauthorized | Forbidden | NotFound | ServerError {
    function Code(): nat {
      match this
      case BadRequest => 400
      case Unauthorized => 401
      case Forbidden => 403
      case NotFound => 404
      case ServerError => 500
    }
  }

  /** What a handler answers: a success body, or an error status with its
      (bilingual) message. A `Fail` carries no store: every failing handler
      but two writes nothing. The writes the comment handler makes before
      its 500 are stated in `Comments.CommentWrites`, and a failed seeding
      returns the partly seeded store beside its `Fail` (`Seed.Seed`). */
  datatype Result<+T> = Ok(value: T) | Fail(status: Status, error: string)

  /** JavaScript truthiness of a string field. */
  predicate Given(s: string) {
    s != ""
  }

  /** `s || fallback` on a string field. */
  function OrElse(s: string, fallback: string): string {
    if Given(s) then s else fallback
  }

  function Min(a: int, b: int): int {
    if a <= b then a else b
  }

  function Max(a: int, b: int): int {
    if a >= b then a else b
  }
}

=== FILE: compose.dfy ===
/** The compose form of the client: a text of at most 500 characters, an
    optional image of at most 5 MB, and the submission that uploads the
    image and then creates the post through POST /api/posts.

    The calls the form makes are parameters: the clock reading behind
    `Date.now()`, the result of the upload call and the result of the post
    call. The signed-in user is an `Option`. */
module Compose {

  import opened Common
  import Text
  import Language
  import Posts
  import Store

  const MaxLength: nat := 500
  const MaxImageBytes: nat := 5 * 1024 * 1024

  const DefaultTopic: string := "Lịch sử Việt Nam"
  const DefaultTimestamp: string := "Vừa xong"

  /** The form's fields; `image` is the data URL of the chosen image and
      `error` the message shown ("" for none). */
  datatype Form = Form(content: string, topic: string, timestamp: string, image: Option<string>, error: string)

  /** The signed-in user, as far as the form reads it. */
  datatype Author = Author(name: string, handle: string)

  const Cleared: Form := Form("", "", "", None, "")

  /** The text field only ever holds at most 500 characters. */
  predicate Valid(f: Form) {
    |f.content| <= MaxLength
  }

  /** Typing: the field keeps the first 500 characters of what was entered. */
  function Type(f: Form, input: string): (r: Form)
    ensures Valid(r)
    ensures r.content <= input
    ensures |input| <= MaxLength ==> r.content == input
    ensures |input| > MaxLength ==> |r.content| == MaxLength
    ensures r == f.(content := r.content)
  {
    f.(content := Text.Prefix(input, MaxLength))
  }

  /** The count of characters left, shown under the text. */
  function Remaining(f: Form): (r: int)
    ensures r + |f.content| == MaxLength
    ensures Valid(f) ==> 0 <= r <= MaxLength
  {
    MaxLength - |f.content|
  }

  /** Choosing an image of `size` bytes read as `dataUrl`: one over 5 MB is
      refused with a message and leaves the image as it was. */
  function SelectImage(f: Form, size: nat, dataUrl: string, lang: Language.Lang): (r: Form)
    ensures size > MaxImageBytes ==>
      r == f.(error := Language.T(lang, "Ảnh quá lớn (tối đa 5MB)", "Image too large (max 5MB)"))
    ensures size <= MaxImageBytes ==> r == f.(image := Some(dataUrl))
  {
    if size > MaxImageBytes then f.(error := Language.T(lang, "Ảnh quá lớn (tối đa 5MB)", "Image too large (max 5MB)"))
    else f.(image := Some(dataUrl))
  }

  function RemoveImage(f: Form): (r: Form)
    ensures r.image == None && r == f.(image := None)
  {
    f.(image := None)
  }

  /** What the upload call came to: the stored image's URL, an answer
      without success (with its `error`, "" if none), or a thrown error. */
  datatype Upload = Uploaded(url: string) | UploadRefused(error: string) | UploadThrew

  /** What the post call came to: success, an answer without success (with
      its `error`), or a thrown error. */
  datatype Posted = PostedOk | PostRefused(error: string) | PostThrew

  /** The outcome of a submission: the form afterwards, the request body
      sent to POST /api/posts if any, and whether the form closed. */
  datatype Step = Step(form: Form, sent: Option<Posts.CreateRequest>, closed: bool)

  /** The body of the create request. */
  function Body(f: Form, user: Author, now: nat, imageUrl: string): (req: Posts.CreateRequest)
    ensures req.content == f.content && req.postType == "post" && req.imageUrl == imageUrl
    ensures req.authorName == user.name && req.authorHandle == "@" + user.handle
    ensures |req.postId| > 5 && req.postId[..5] == "user-"
    ensures Given(req.topic) && Given(req.timestamp)
    ensures Given(f.topic) ==> req.topic == f.topic
    ensures Given(f.timestamp) ==> req.timestamp == f.timestamp
  {
    var id := "user-" + Text.Decimal(now);
    assert id[..5] == "user-";
    Posts.CreateRequest(id, OrElse(f.topic, DefaultTopic), user.name, "@" + user.handle, f.content,
                        OrElse(f.timestamp, DefaultTimestamp), "post", imageUrl)
  }

  /** `handleSubmit`. Blank text and a missing sign-in are refused before
      anything is sent; a failed upload stops the submission; a successful
      post clears the form and closes it. */
  function Submit(f: Form, user: Option<Author>, lang: Language.Lang, now: nat,
                  upload: Upload, posted: Posted): (r: Step)
    ensures Text.Blank(f.content) ==>
      r == Step(f.(error := Language.T(lang, "Vui lòng nhập nội dung", "Please enter content")), None, false)
    ensures !Text.Blank(f.content) && user.None? ==>
      r == Step(f.(error := Language.T(lang, "Vui lòng đăng nhập để đăng bài", "Please login to post")), None, false)
    ensures r.sent.Some? <==>
      !Text.Blank(f.content) && user.Some? && (f.image.None? || upload.Uploaded?)
    ensures r.sent.Some? ==>
      r.sent.value == Body(f, user.value, now, if f.image.Some? then upload.url else "")
    ensures r.closed <==> r.sent.Some? && posted.PostedOk?
    ensures r.closed ==> r.form == Cleared
    ensures !r.closed ==> r.form == f.(error := r.form.error) && r.form.error != ""
  {
    Text.TrimEmptyIffBlank(f.content);
    if Text.Trim(f.content) == [] then
      Refuse(f, Language.T(lang, "Vui lòng nhập nội dung", "Please enter content"))
    else if user.None? then
      Refuse(f, Language.T(lang, "Vui lòng đăng nhập để đăng bài", "Please login to post"))
    else if f.image.Some? && upload.UploadRefused? then
      Refuse(f, Language.T(lang, "Lỗi upload ảnh: " + OrElse(upload.error, "Unknown"), "Image upload error"))
    else if f.image.Some? && upload.UploadThrew? then
      Refuse(f, Language.T(lang, "Lỗi upload ảnh", "Image upload error"))
    else
      Send(f, Body(f, user.value, now, if f.image.Some? then upload.url else ""), lang, posted)
  }

  /** A submission stopped before the post call: the message is shown and
      nothing else changes. */
  function Refuse(f: Form, message: string): (r: Step)
    requires Given(message)
    ensures r.sent.None? && !r.closed
    ensures r.form == f.(error := message) && r.form.error != ""
  {
    Step(f.(error := message), None, false)
  }

  /** The post call and what the form does with its result: a success
      clears and closes the form; a failure shows the server's error, or a
      fallback message. */
  function Send(f: Form, req: Posts.CreateRequest, lang: Language.Lang, posted: Posted): (r: Step)
    ensures r.sent == Some(req)
    ensures r.closed <==> posted.PostedOk?
    ensures r.closed ==> r.form == Cleared
    ensures !r.closed ==> r.form == f.(error := r.form.error) && r.form.error != ""
    ensures posted.PostRefused? && Given(posted.error) ==> r.form.error == posted.error
  {
    match posted
    case PostedOk => Step(Cleared, Some(req), true)
    case PostRefused(e) =>
      Step(f.(error := OrElse(e, Language.T(lang, "Đăng bài thất bại", "Failed to post"))), Some(req), false)
    case PostThrew =>
      Step(f.(error := Language.T(lang, "Lỗi kết nối server", "Server connection error")), Some(req), false)
  }

  /** Typing, choosing and removing an image keep the text within its
      limit, so the counter never goes below zero. */
  lemma EditsKeepValid(f: Form, input: string, size: nat, dataUrl: string, lang: Language.Lang)
    requires Valid(f)
    ensures Valid(Type(f, input)) && Remaining(Type(f, input)) >= 0
    ensures Valid(SelectImage(f, size, dataUrl, lang)) && Valid(RemoveImage(f))
  {
  }

  /** A body the form sends (text not blank, a user signed in, and no image
      or an uploaded one) always passes the server's required-field check
      and its type enumeration, so creating it fails only on a `postId`
      already taken. */
  lemma SentBodyIsAccepted(db: Store.Db, f: Form, user: Option<Author>, lang: Language.Lang, now: nat,
                           upload: Upload, posted: Posted, env: Store.Env)
    requires !Text.Blank(f.content) && user.Some? && (f.image.None? || upload.Uploaded?)
    ensures var req := Submit(f, user, lang, now, upload, posted).sent.value;
      Posts.CreatePost(db, req, env).Fail? <==> req.postId in db.posts
  {
    Text.TrimEmptyIffBlank(f.content);
  }

  /** The image is uploaded and its URL sent, yet the post the server
      stores has no image; the corrected creation keeps it. */
  lemma UploadedImageNotStored(db: Store.Db, f: Form, user: Option<Author>, lang: Language.Lang, now: nat,
                               url: string, posted: Posted, env: Store.Env)
    requires f.image.Some? && Given(url)
    requires !Text.Blank(f.content) && user.Some?
    ensures var req := Submit(f, user, lang, now, Uploaded(url), posted).sent.value;
      && req.imageUrl == url
      && (Posts.CreatePost(db, req, env).Ok? ==> Posts.CreatePost(db, req, env).value.body.imageUrl == None)
      && (Posts.CreatePostKeepingImage(db, req, env).Ok? ==>
            Posts.CreatePostKeepingImage(db, req, env).value.body.imageUrl == Some(url))
  {
    var req := Submit(f, user, lang, now, Uploaded(url), posted).sent.value;
    if Posts.CreatePost(db, req, env).Ok? {
      Posts.CreatePostDropsImage(db, req, env);
    }
  }
}

=== FILE: feed.dfy ===
/** The feed hook of the client: the mock post groups chosen by keywords in
    the topic, and the states `generateFeed`, `loadAllPosts` and
    `resetFeed` move the feed through.

    The hook's effects become values. `lower` stands for `toLowerCase`, the
    bundled mock posts are the parameter `mock` (one list per group), and
    the outcome of the `fetch` call is a `Response`. */
module Feed {

  import opened Common
  import opened Records
  import Text

  /** The lists of the mock data table: `default` and the six topics. */
  datatype MockGroup = Default | LeLoi | QuangTrung | DienBienPhu | ThongNhat | DoiMoi | VanHoa

  /** A keyword rule: the group served when one of the keywords occurs. */
  datatype Rule = Rule(group: MockGroup, keywords: seq<string>)

  /** The rules in the order they are tried. */
  const Rules: seq<Rule> := [
    Rule(LeLoi, ["lê lợi", "le loi", "lam sơn", "nguyễn trãi"]),
    Rule(QuangTrung, ["quang trung", "tây sơn", "đống đa", "nguyễn huệ"]),
    Rule(DienBienPhu, ["điện biên", "dien bien", "võ nguyên giáp", "1954"]),
    Rule(ThongNhat, ["thống nhất", "30/4", "1975", "giải phóng"]),
    Rule(DoiMoi, ["đổi mới", "doi moi", "1986"]),
    Rule(VanHoa, ["văn hóa", "hạ long", "áo dài", "unesco", "culture"])
  ]

  /** One of the keywords occurs in `s`. */
  predicate AnyOccurs(s: string, keywords: seq<string>) {
    exists k :: k in keywords && Text.Contains(s, k)
  }

  /** The rule at `i` is the first whose keywords occur in `s`. */
  predicate FirstRule(s: string, i: int) {
    && 0 <= i < |Rules|
    && AnyOccurs(s, Rules[i].keywords)
    && forall j :: 0 <= j < i ==> !AnyOccurs(s, Rules[j].keywords)
  }

  /** The group for an already lower-cased topic, tried rule by rule. */
  function Group(s: string): (g: MockGroup)
    ensures g == Default <==> forall i :: 0 <= i < |Rules| ==> !AnyOccurs(s, Rules[i].keywords)
    ensures g != Default ==> exists i :: FirstRule(s, i) && Rules[i].group == g
  {
    if AnyOccurs(s, Rules[0].keywords) then
      assert FirstRule(s, 0);
      LeLoi
    else if AnyOccurs(s, Rules[1].keywords) then
      assert FirstRule(s, 1);
      QuangTrung
    else if AnyOccurs(s, Rules[2].keywords) then
      assert FirstRule(s, 2);
      DienBienPhu
    else if AnyOccurs(s, Rules[3].keywords) then
      assert FirstRule(s, 3);
      ThongNhat
    else if AnyOccurs(s, Rules[4].keywords) then
      assert FirstRule(s, 4);
      DoiMoi
    else if AnyOccurs(s, Rules[5].keywords) then
      assert FirstRule(s, 5);
      VanHoa
    else Default
  }

  /** Keywords each holding a character that `s` lacks (`marks[j]` for
      `keywords[j]`) cannot occur in `s`. */
  lemma NoneOccur(s: string, keywords: seq<string>, marks: seq<char>)
    requires |marks| == |keywords|
    requires forall j :: 0 <= j < |keywords| ==> marks[j] in keywords[j] && marks[j] !in s
    ensures !AnyOccurs(s, keywords)
  {
  }

  /** The first rule that matches decides: a topic naming two periods gets
      the group listed first, whatever else it names. */
  lemma FirstMatchWins(s: string, i: int)
    requires FirstRule(s, i)
    ensures Group(s) == Rules[i].group
  {
  }

  /** `generateMockPosts(topic)`. */
  function MockPosts(topic: string, lower: string -> string, mock: MockGroup -> seq<SocialPost>): seq<SocialPost> {
    mock(Group(lower(topic)))
  }

  /** `generateMockPosts('default')`, the fallback of `loadAllPosts`, gives
      the default list, because none of the keywords occurs in "default". */
  lemma DefaultTopicGetsDefault(lower: string -> string, mock: MockGroup -> seq<SocialPost>)
    requires lower("default") == "default"
    ensures MockPosts("default", lower, mock) == mock(Default)
  {
    forall i | 0 <= i < |Rules| ensures !AnyOccurs("default", Rules[i].keywords) {
      DefaultMisses(i);
    }
  }

  /** Each keyword list holds a character that "default" lacks in every
      keyword. */
  lemma DefaultMisses(i: int)
    requires 0 <= i < |Rules|
    ensures !AnyOccurs("default", Rules[i].keywords)
  {
    var marks := ["êomn", "qyđn", "điv1", "h31g", "đo1", "vhánc"][i];
    NoneOccur("default", Rules[i].keywords, marks);
  }

  datatype FeedStatus = Idle | Loading | Success | Error

  /** The feed state; `error` is `null` as `None`. */
  datatype FeedState = FeedState(status: FeedStatus, data: seq<SocialPost>, error: Option<string>)

  const IdleState: FeedState := FeedState(Idle, [], None)
  const LoadingState: FeedState := FeedState(Loading, [], None)

  function Failed(message: string): FeedState {
    FeedState(Error, [], Some(message))
  }

  function Loaded(data: seq<SocialPost>): FeedState {
    FeedState(Success, data, None)
  }

  /** What the `fetch` of the posts listing came to: a response that is not
      ok, a thrown value (`Some(message)` for an `Error`, `None` for anything
      else), or the parsed body. */
  datatype Response = NotOk(code: nat) | Threw(message: Option<string>) | Answered(success: bool, data: seq<SocialPost>)

  const EmptyTopic := "Vui lòng nhập chủ đề để khám phá / Please enter a topic to explore"
  const Unexpected := "Đã xảy ra lỗi / An unexpected error occurred"

  /** The message of the `Error` thrown for a response that is not ok. */
  function ApiError(code: nat): string {
    "API error: " + Text.Decimal(code)
  }

  /** A state the component can render: it carries an error exactly when it
      is an error, and only a success carries posts. */
  predicate Coherent(s: FeedState) {
    && (s.status == Error <==> s.error.Some?)
    && (s.status != Success ==> s.data == [])
  }

  /** `generateFeed(topic)`: the states set, in order. In mock mode the
      response is not consulted. */
  function GenerateFeed(topic: string, mockMode: bool, lower: string -> string,
                        mock: MockGroup -> seq<SocialPost>, response: Response): (trace: seq<FeedState>)
    ensures 1 <= |trace| <= 2
    ensures |trace| == 1 <==> Text.Blank(topic)
    ensures |trace| == 1 ==> trace[0] == Failed(EmptyTopic)
    ensures |trace| == 2 ==> trace[0] == LoadingState && (trace[1].status == Success || trace[1].status == Error)
    ensures |trace| == 2 && mockMode ==> trace[1] == Loaded(mock(Group(lower(topic))))
    ensures forall k :: 0 <= k < |trace| ==> Coherent(trace[k])
  {
    Text.TrimEmptyIffBlank(topic);
    if Text.Trim(topic) == [] then [Failed(EmptyTopic)]
    else [LoadingState, Settled(topic, mockMode, lower, mock, response)]
  }

  /** The state `generateFeed` ends in for a topic that is not blank. */
  function Settled(topic: string, mockMode: bool, lower: string -> string,
                   mock: MockGroup -> seq<SocialPost>, response: Response): (s: FeedState)
    ensures Coherent(s) && (s.status == Success || s.status == Error)
    ensures mockMode ==> s == Loaded(mock(Group(lower(topic))))
  {
    if mockMode then Loaded(MockPosts(topic, lower, mock))
    else
      match response
      case NotOk(code) => Failed(ApiError(code))
      case Threw(message) => Failed(OrElseNone(message, Unexpected))
      case Answered(success, data) =>
        if success && |data| > 0 then Loaded(data)
        else Loaded(MockPosts(topic, lower, mock))
  }

  function OrElseNone(o: Option<string>, d: string): string {
    match o
    case Some(v) => v
    case None => d
  }

  /** Outside mock mode the posts the API found are shown, and the mock
      group of the topic only when it found none; errors are reported with
      their message. */
  lemma GenerateFeedOutcome(topic: string, lower: string -> string,
                            mock: MockGroup -> seq<SocialPost>, response: Response)
    requires !Text.Blank(topic)
    ensures var last := GenerateFeed(topic, false, lower, mock, response)[1];
      && (response.Answered? && response.success && response.data != [] ==> last == Loaded(response.data))
      && (response.Answered? && !(response.success && response.data != []) ==> last == Loaded(mock(Group(lower(topic)))))
      && (response.NotOk? ==> last == Failed(ApiError(response.code)))
      && (response.Threw? && response.message.Some? ==> last == Failed(response.message.value))
      && (last.status == Error <==> !response.Answered?)
  {
    Text.TrimEmptyIffBlank(topic);
  }

  /** In mock mode the outcome depends on the topic only through the group
      its keywords select. */
  lemma MockModeByGroup(t1: string, t2: string, lower: string -> string,
                        mock: MockGroup -> seq<SocialPost>, r1: Response, r2: Response)
    requires !Text.Blank(t1) && !Text.Blank(t2)
    requires Group(lower(t1)) == Group(lower(t2))
    ensures GenerateFeed(t1, true, lower, mock, r1) == GenerateFeed(t2, true, lower, mock, r2)
  {
    Text.TrimEmptyIffBlank(t1);
    Text.TrimEmptyIffBlank(t2);
  }

  /** `loadAllPosts()`: an empty listing leaves the feed idle, and any
      failure falls back to the default mock posts instead of an error. */
  function LoadAllPosts(lower: string -> string, mock: MockGroup -> seq<SocialPost>, response: Response)
    : (trace: seq<FeedState>)
    ensures |trace| == 2 && trace[0] == LoadingState
    ensures trace[1].status != Error && trace[1].status != Loading
    ensures trace[1].status == Idle <==> response.Answered? && !(response.success && response.data != [])
    ensures forall k :: 0 <= k < |trace| ==> Coherent(trace[k])
  {
    match response
    case Answered(success, data) =>
      if success && |data| > 0 then [LoadingState, Loaded(data)] else [LoadingState, IdleState]
    case _ => [LoadingState, Loaded(MockPosts("default", lower, mock))]
  }

  /** A failed load shows the default mock posts. */
  lemma LoadFailureShowsDefault(lower: string -> string, mock: MockGroup -> seq<SocialPost>, response: Response)
    requires lower("default") == "default"
    requires !response.Answered?
    ensures LoadAllPosts(lower, mock, response)[1] == Loaded(mock(Default))
  {
    DefaultTopicGetsDefault(lower, mock);
  }

  /** `resetFeed()`. */
  function ResetFeed(): (s: FeedState)
    ensures Coherent(s) && s.status == Idle && s.data == []
  {
    IdleState
  }
}

=== FILE: language.dfy ===
/** The interface language of the client: Vietnamese first, a toggle
    between the two, and the translation choice `t(vi, en)`. */
module Language {

  datatype Lang = Vi | En

  /** The language a new session starts in. */
  const Initial: Lang := Vi

  function Toggle(l: Lang): (r: Lang)
    ensures r != l
  {
    if l == Vi then En else Vi
  }

  /** `t(vi, en)`: the Vietnamese text exactly when the language is 'vi'. */
  function T(l: Lang, vi: string, en: string): (r: string)
    ensures l == Vi ==> r == vi
    ensures l == En ==> r == en
  {
    if l == Vi then vi else en
  }

  /** Toggling twice restores the language, and a toggle always swaps which
      text `t` picks. */
  lemma ToggleInvolution(l: Lang, vi: string, en: string)
    ensures Toggle(Toggle(l)) == l
    ensures T(Toggle(l), vi, en) == T(l, en, vi)
  {
  }

  /** After `n` toggles from the initial language the client shows English
      exactly when `n` is odd. */
  lemma {:induction false} TogglesFromInitial(n: nat)
    ensures Iterate(Initial, n) == (if n % 2 == 0 then Vi else En)
  {
    if n > 0 {
      TogglesFromInitial(n - 1);
    }
  }

  function Iterate(l: Lang, n: nat): Lang {
    if n == 0 then l else Toggle(Iterate(l, n - 1))
  }
}

=== FILE: like.dfy ===
/** POST /api/posts/like (like/unlike toggle) and GET /api/posts/like (like
    status) over the abstract store. */
module Like {

  import opened Common
  import opened Records
  import opened Store
  import Lists

  datatype LikeRequest = LikeRequest(postId: string, odId: string, action: string)

  /** The `data` of both like responses. */
  datatype LikeStatus = LikeStatus(postId: string, likes: int, isLiked: bool)

  const MissingIds: string := "postId và odId là bắt buộc / postId and odId are required"
  const MissingPostId: string := "postId là bắt buộc / postId is required"
  const ServerFailure: string := "Lỗi máy chủ / Server error"

  /** The record the toggle creates for a `postId` the store does not know, so
      that posts shown from static content can be liked. */
  function Placeholder(postId: string, env: Env): Post {
    Post(postId, "unknown", "Unknown", "@unknown", None, "", env.isoNow, TypePost, None,
         0, 0, 0, [], [], env.clock)
  }

  /** The notification sent to the post's author on an effective like. */
  function LikeNotification(post: Post, req: LikeRequest, env: Env): Notification {
    Notification(env.freshId, post.authorHandle, LikeNote,
                 "Lượt thích mới", "New Like",
                 "Ai đó đã thích bài viết của bạn", "Someone liked your post",
                 Some(req.postId), Some(req.odId), None, None, false, env.clock)
  }

  /** A like that changes the record: the action is "like" and the user has
      not liked the post yet. */
  predicate EffectiveLike(post: Post, odId: string, action: string) {
    action == "like" && odId !in post.likedBy
  }

  /** The membership and counter update the toggle applies to one record. */
  function Toggle(post: Post, odId: string, action: string): Post {
    if EffectiveLike(post, odId, action) then
      post.(likes := post.likes + 1, likedBy := post.likedBy + [odId])
    else if action == "unlike" && odId in post.likedBy then
      post.(likes := Max(0, post.likes - 1), likedBy := Lists.Remove(post.likedBy, odId))
    else post
  }

  /** The record the toggle starts from: the stored one, or a placeholder. */
  function Target(db: Db, postId: string, env: Env): Post {
    if postId in db.posts then db.posts[postId] else Placeholder(postId, env)
  }

  /** An effective like whose notification cannot be created: the
      notification requires a non-empty `userId`, and a record the comment
      upsert created has no `authorHandle`. */
  predicate Unnotifiable(db: Db, req: LikeRequest, env: Env) {
    var post := Target(db, req.postId, env);
    EffectiveLike(post, req.odId, req.action) && !Given(post.authorHandle)
  }

  /** POST /api/posts/like, with the placeholder of an unknown post accepted
      as the handler intends (`ToggleLikeAsWritten` is the handler as
      written). A notification that cannot be created throws before the
      record is saved, so that 500 writes nothing. */
  function ToggleLike(db: Db, req: LikeRequest, env: Env): (r: Result<Reply<LikeStatus>>)
    ensures r.Fail? <==> !Given(req.postId) || !Given(req.odId) || Unnotifiable(db, req, env)
    ensures !Given(req.postId) || !Given(req.odId) ==> r == Fail(BadRequest, MissingIds)
    ensures Given(req.postId) && Given(req.odId) && Unnotifiable(db, req, env) ==>
      r == Fail(ServerError, ServerFailure)
    ensures r.Ok? ==>
      var after := r.value.db;
      && req.postId in after.posts
      && after.posts.Keys == db.posts.Keys + {req.postId}
      && (forall k :: k in db.posts && k != req.postId ==> after.posts[k] == db.posts[k])
      && after.comments == db.comments && after.users == db.users && after.stats == db.stats
      && r.value.body.likes == after.posts[req.postId].likes
      && r.value.body.isLiked == (req.odId in after.posts[req.postId].likedBy)
    ensures r.Ok? ==> r.value.db.posts[req.postId] == Toggle(Target(db, req.postId, env), req.odId, req.action)
  {
    if !Given(req.postId) || !Given(req.odId) then Fail(BadRequest, MissingIds)
    else if Unnotifiable(db, req, env) then Fail(ServerError, ServerFailure)
    else
      var post := Target(db, req.postId, env);
      var updated := Toggle(post, req.odId, req.action);
      var notes :=
        if EffectiveLike(post, req.odId, req.action)
        then [LikeNotification(post, req, env)] + db.notifications
        else db.notifications;
      var after := db.(posts := db.posts[req.postId := updated], notifications := notes);
      Ok(Reply(after, LikeStatus(updated.postId, updated.likes, req.odId in updated.likedBy)))
  }

  /** GET /api/posts/like. */
  function GetLikeStatus(db: Db, postId: string, odId: string): (r: Result<LikeStatus>)
    ensures r.Fail? <==> !Given(postId)
    ensures r.Fail? ==> r.status == BadRequest
    ensures r.Ok? && r.value.isLiked ==>
      Given(odId) && postId in db.posts && odId in db.posts[postId].likedBy
    ensures r.Ok? && Given(odId) && postId in db.posts && odId in db.posts[postId].likedBy ==>
      r.value.isLiked
    ensures r.Ok? && postId !in db.posts ==> r.value.likes == 0
  {
    if !Given(postId) then Fail(BadRequest, MissingPostId)
    else if postId !in db.posts then Ok(LikeStatus(postId, 0, false))
    else
      var post := db.posts[postId];
      Ok(LikeStatus(post.postId, post.likes, Given(odId) && odId in post.likedBy))
  }

  /** An unknown post is first created as a placeholder with zero counters
      and no members, attributed to '@unknown'. */
  lemma UnknownPostGetsPlaceholder(db: Db, req: LikeRequest, env: Env)
    requires Given(req.postId) && Given(req.odId) && req.postId !in db.posts
    ensures var p := Target(db, req.postId, env);
      && p.postId == req.postId && p.authorHandle == "@unknown"
      && p.likes == 0 && p.retweets == 0 && p.replies == 0
      && p.likedBy == [] && p.retweetedBy == []
  {
  }

  /** The placeholder is written with an empty `content`, which the post
      schema declares required; it meets every other required-field rule. */
  lemma PlaceholderLacksContent(postId: string, env: Env)
    requires Given(postId) && Given(env.isoNow)
    ensures !PostRequiredFieldsPresent(Placeholder(postId, env))
    ensures PostRequiredFieldsPresent(Placeholder(postId, env).(content := "x"))
  {
  }

  /** POST /api/posts/like as written: `Post.create` refuses the placeholder
      and its empty `content`, so a request about an unknown post throws and
      is answered 500; any other request is handled as by `ToggleLike`. */
  function ToggleLikeAsWritten(db: Db, req: LikeRequest, env: Env): (r: Result<Reply<LikeStatus>>)
    ensures Given(req.postId) && Given(req.odId) && req.postId !in db.posts ==> r == Fail(ServerError, ServerFailure)
    ensures !Given(req.postId) || !Given(req.odId) || req.postId in db.posts ==> r == ToggleLike(db, req, env)
  {
    if Given(req.postId) && Given(req.odId) && req.postId !in db.posts
       && !PostRequiredFieldsPresent(Placeholder(req.postId, env))
    then Fail(ServerError, ServerFailure)
    else ToggleLike(db, req, env)
  }

  /** A like of a post shown from static content, unknown to the store, is
      refused as written, while the intended handler stores the placeholder
      with the one like. */
  lemma PlaceholderRefusedAsWritten(db: Db, req: LikeRequest, env: Env)
    requires Given(req.postId) && Given(req.odId) && req.postId !in db.posts && req.action == "like"
    ensures ToggleLikeAsWritten(db, req, env) == Fail(ServerError, ServerFailure)
    ensures var r := ToggleLike(db, req, env);
      && r.Ok? && r.value.body.likes == 1 && r.value.body.isLiked
      && r.value.db.posts[req.postId] == Placeholder(req.postId, env).(likes := 1, likedBy := [req.odId])
  {
  }

  /** Liking is idempotent: a second identical like changes no record and
      sends no second notification. */
  lemma LikeIsIdempotent(db: Db, req: LikeRequest, env: Env, env2: Env)
    requires Given(req.postId) && Given(req.odId) && req.action == "like"
    requires Given(Target(db, req.postId, env).authorHandle)
    ensures var r1 := ToggleLike(db, req, env);
      && r1.Ok?
      && var r2 := ToggleLike(r1.value.db, req, env2);
      && r2.Ok?
      && r2.value.db == r1.value.db
      && r2.value.body == r1.value.body
      && r1.value.body.isLiked
  {
    var r1 := ToggleLike(db, req, env);
    assert req.odId in r1.value.db.posts[req.postId].likedBy;
  }

  /** Unliking is idempotent as well, and leaves the user out of the list. */
  lemma UnlikeIsIdempotent(db: Db, req: LikeRequest, env: Env, env2: Env)
    requires Given(req.postId) && Given(req.odId) && req.action == "unlike"
    ensures var r1 := ToggleLike(db, req, env);
      && r1.Ok?
      && var r2 := ToggleLike(r1.value.db, req, env2);
      && r2.Ok?
      && r2.value.db == r1.value.db
      && !r1.value.body.isLiked
  {
    var r1 := ToggleLike(db, req, env);
    assert req.odId !in r1.value.db.posts[req.postId].likedBy;
  }

  /** The effect of one toggle on the record it touches: "like" by a new
      user adds one like and appends the user; "unlike" by a member takes
      one like away (never below 0) and drops the user; every other case
      changes nothing. Retweets and replies are never touched. */
  lemma ToggleEffect(post: Post, odId: string, action: string)
    ensures var p := Toggle(post, odId, action);
      && p.retweets == post.retweets && p.replies == post.replies
      && p.retweetedBy == post.retweetedBy && p.postId == post.postId
      && (action == "like" && odId !in post.likedBy ==>
            p.likes == post.likes + 1 && p.likedBy == post.likedBy + [odId])
      && (action == "unlike" && odId in post.likedBy ==>
            p.likes == Max(0, post.likes - 1) && odId !in p.likedBy
            && (forall u :: u != odId ==> (u in p.likedBy <==> u in post.likedBy)))
      && (((action == "like" && odId in post.likedBy)
           || (action == "unlike" && odId !in post.likedBy)
           || (action != "like" && action != "unlike")) ==> p == post)
      && (odId in p.likedBy <==> (if action == "like" then true
                                 else if action == "unlike" then false
                                 else odId in post.likedBy))
  {
  }

  /** `likedBy` never gains a duplicate. */
  lemma {:induction false} ToggleKeepsLikedByDistinct(post: Post, odId: string, action: string)
    requires Lists.NoDup(post.likedBy)
    ensures Lists.NoDup(Toggle(post, odId, action).likedBy)
  {
    if action == "unlike" && odId in post.likedBy && !EffectiveLike(post, odId, action) {
      Lists.RemoveOnce(post.likedBy, odId);
    }
  }

  /** With at least one like on record, an effective toggle changes the
      counter and the member list by the same amount, so
      `likes - |likedBy|` is invariant. */
  lemma {:induction false} ToggleTracksMembership(post: Post, odId: string, action: string)
    requires Lists.NoDup(post.likedBy)
    requires post.likes >= 1 || action != "unlike"
    ensures var p := Toggle(post, odId, action);
      p.likes - |p.likedBy| == post.likes - |post.likedBy|
  {
    if action == "unlike" && odId in post.likedBy {
      Lists.RemoveOnce(post.likedBy, odId);
    }
  }

  /** Hence a record whose counter equals its member count keeps that
      property under every toggle, and the placeholder starts with it. */
  lemma {:induction false} ToggleKeepsCountExact(post: Post, odId: string, action: string)
    requires Lists.NoDup(post.likedBy) && post.likes == |post.likedBy|
    ensures var p := Toggle(post, odId, action);
      Lists.NoDup(p.likedBy) && p.likes == |p.likedBy|
  {
    ToggleKeepsLikedByDistinct(post, odId, action);
    if action == "unlike" && odId in post.likedBy {
      Lists.RemoveOnce(post.likedBy, odId);
    }
  }

  /** A like by a new user followed by an unlike by the same user restores
      the counter and the member list. */
  lemma {:induction false} LikeThenUnlikeRestores(post: Post, odId: string)
    requires odId !in post.likedBy && post.likes >= 0
    ensures var p := Toggle(Toggle(post, odId, "like"), odId, "unlike");
      p.likes == post.likes && p.likedBy == post.likedBy
  {
    var liked := Toggle(post, odId, "like");
    assert liked.likedBy == post.likedBy + [odId];
    RemoveAppended(post.likedBy, odId);
  }

  lemma {:induction false} RemoveAppended(s: seq<string>, x: string)
    requires x !in s
    ensures Lists.Remove(s + [x], x) == s
  {
    if s == [] {
      assert [x][1..] == [];
    } else {
      assert (s + [x])[1..] == s[1..] + [x];
      RemoveAppended(s[1..], x);
    }
  }

  /** A notification, addressed to the post's author, is created exactly on
      an effective like; no other request adds or changes a notification.
      An effective like of a record without an author is a 500. */
  lemma NotifiesOnlyOnEffectiveLike(db: Db, req: LikeRequest, env: Env)
    requires Given(req.postId) && Given(req.odId)
    ensures var r := ToggleLike(db, req, env);
      var post := Target(db, req.postId, env);
      && (EffectiveLike(post, req.odId, req.action) && !Given(post.authorHandle) ==>
            r == Fail(ServerError, ServerFailure))
      && (!EffectiveLike(post, req.odId, req.action) || Given(post.authorHandle) ==> r.Ok?)
      && (r.Ok? && EffectiveLike(post, req.odId, req.action) ==>
            && r.value.db.notifications == [LikeNotification(post, req, env)] + db.notifications
            && r.value.db.notifications[0].userId == post.authorHandle
            && r.value.db.notifications[0].kind == LikeNote)
      && (!EffectiveLike(post, req.odId, req.action) ==> r.value.db.notifications == db.notifications)
  {
  }

  /** The status read back after a toggle agrees with the toggle's own
      answer. */
  lemma StatusAfterToggle(db: Db, req: LikeRequest, env: Env)
    requires Given(req.postId) && Given(req.odId) && !Unnotifiable(db, req, env)
    ensures var r := ToggleLike(db, req, env);
      r.Ok? && GetLikeStatus(r.value.db, req.postId, req.odId) == Ok(r.value.body)
  {
  }

  /** Status of a post the store does not hold, or asked without a user:
      not liked. */
  lemma StatusDefaults(db: Db, postId: string, odId: string)
    requires Given(postId)
    ensures postId !in db.posts ==> GetLikeStatus(db, postId, odId) == Ok(LikeStatus(postId, 0, false))
    ensures !Given(odId) ==> GetLikeStatus(db, postId, odId).Ok? && !GetLikeStatus(db, postId, odId).value.isLiked
  {
  }
}

=== FILE: lists.dfy ===
/** Operations on the lists of identifiers and topics the records keep (likedBy, topicsExplored,
    seeded topics): duplicate-freedom, `filter(y => y !== x)`, and the
    distinct elements of a list in first-occurrence order (`[...new Set(s)]`). */
module Lists {

  predicate NoDup(s: seq<string>) {
    forall i, j :: 0 <= i < j < |s| ==> s[i] != s[j]
  }

  /** `s.filter(y => y !== x)`. */
  function Remove(s: seq<string>, x: string): (r: seq<string>)
    ensures forall y :: y in r <==> y in s && y != x
    ensures |r| <= |s|
  {
    if s == [] then []
    else if s[0] == x then Remove(s[1..], x)
    else [s[0]] + Remove(s[1..], x)
  }

  /** The filter decides each entry on its own: one entry survives exactly
      when it differs from `x`. */
  lemma RemoveOne(y: string, x: string)
    ensures Remove([y], x) == if y == x then [] else [y]
  {
    assert [y][1..] == [];
  }

  /** ... and the survivors of a concatenation are those of each part, in
      order, so the filter keeps the order of the remaining entries. */
  lemma {:induction false} RemoveAppend(a: seq<string>, b: seq<string>, x: string)
    ensures Remove(a + b, x) == Remove(a, x) + Remove(b, x)
  {
    if a == [] {
      assert a + b == b;
    } else {
      assert (a + b)[0] == a[0] && (a + b)[1..] == a[1..] + b;
      RemoveAppend(a[1..], b, x);
    }
  }

  /** Filtering out an element that is absent changes nothing. */
  lemma {:induction false} RemoveAbsent(s: seq<string>, x: string)
    requires x !in s
    ensures Remove(s, x) == s
  {
    if s != [] {
      assert x !in s[1..];
      RemoveAbsent(s[1..], x);
    }
  }

  /** On a duplicate-free list, filtering out a present element removes
      exactly one entry and keeps the list duplicate-free. */
  lemma {:induction false} RemoveOnce(s: seq<string>, x: string)
    requires NoDup(s)
    ensures NoDup(Remove(s, x))
    ensures x in s ==> |Remove(s, x)| == |s| - 1
  {
    if s != [] {
      assert NoDup(s[1..]) by {
        forall i, j | 0 <= i < j < |s[1..]| ensures s[1..][i] != s[1..][j] {
          assert s[1..][i] == s[i + 1] && s[1..][j] == s[j + 1];
        }
      }
      RemoveOnce(s[1..], x);
      if s[0] == x {
        assert x !in s[1..] by {
          forall k | 0 <= k < |s[1..]| ensures s[1..][k] != x {
            assert s[1..][k] == s[k + 1];
          }
        }
        RemoveAbsent(s[1..], x);
      } else {
        assert s[0] !in s[1..] by {
          forall k | 0 <= k < |s[1..]| ensures s[1..][k] != s[0] {
            assert s[1..][k] == s[k + 1];
          }
        }
        var r := Remove(s[1..], x);
        assert s[0] !in r;
        assert NoDup([s[0]] + r) by {
          forall i, j | 0 <= i < j < |[s[0]] + r| ensures ([s[0]] + r)[i] != ([s[0]] + r)[j] {
            if i == 0 {
              assert ([s[0]] + r)[j] == r[j - 1];
            } else {
              assert ([s[0]] + r)[i] == r[i - 1] && ([s[0]] + r)[j] == r[j - 1];
            }
          }
        }
      }
    }
  }

  /** Append `x` unless it is already present (`includes` then `push`). */
  function AddIfAbsent(s: seq<string>, x: string): (r: seq<string>)
    ensures NoDup(s) ==> NoDup(r)
    ensures x in r
    ensures forall y :: y in r <==> y in s || y == x
    ensures |s| <= |r| && r[..|s|] == s
  {
    if x in s then s else s + [x]
  }

  /** The index of the first occurrence of a present element. */
  function First(s: seq<string>, x: string): (r: nat)
    requires x in s
    ensures r < |s| && s[r] == x && x !in s[..r]
  {
    if s[0] == x then 0
    else
      assert x in s[1..];
      var k := First(s[1..], x);
      assert s[..k + 1] == [s[0]] + s[1..][..k];
      k + 1
  }

  /** Reference definition of `[...new Set(s)]`: position `i` contributes
      `s[i]` exactly when `s[i]` does not occur earlier. */
  function Firsts(s: seq<string>): seq<string>
  {
    if s == [] then []
    else
      var init := s[..|s| - 1];
      Firsts(init) + (if s[|s| - 1] in init then [] else [s[|s| - 1]])
  }

  /** The distinct list is duplicate-free, has the same elements as the input,
      and lists them in the order of their first occurrence. */
  lemma {:induction false} FirstsProperties(s: seq<string>)
    ensures NoDup(Firsts(s))
    ensures forall y :: y in Firsts(s) <==> y in s
    ensures forall i, j :: 0 <= i < j < |Firsts(s)| ==> First(s, Firsts(s)[i]) < First(s, Firsts(s)[j])
  {
    if s != [] {
      var init := s[..|s| - 1];
      var last := s[|s| - 1];
      FirstsProperties(init);
      var d := Firsts(init);
      assert s == init + [last];
      forall y | y in init ensures First(s, y) == First(init, y) {
        var k := First(init, y);
        assert s[..k] == init[..k];
      }
      if last !in init {
        var r := d + [last];
        assert First(s, last) == |s| - 1 by {
          assert s[..|s| - 1] == init;
        }
        forall i, j | 0 <= i < j < |r| ensures First(s, r[i]) < First(s, r[j]) {
          assert r[i] == d[i] && r[i] in init;
          if j < |d| {
            assert r[j] == d[j];
          }
        }
        assert NoDup(r) by {
          forall i, j | 0 <= i < j < |r| ensures r[i] != r[j] {
            assert r[i] == d[i] && r[i] in init;
          }
        }
      } else {
        assert Firsts(s) == d;
      }
    }
  }

  /** `[...new Set(s)]` as the runtime computes it: walk the list once and
      append each element the set has not seen yet. */
  method Distinct(s: seq<string>) returns (r: seq<string>)
    ensures r == Firsts(s)
    ensures NoDup(r)
    ensures forall y :: y in r <==> y in s
  {
    r := [];
    var i := 0;
    while i < |s|
      invariant 0 <= i <= |s|
      invariant r == Firsts(s[..i])
    {
      FirstsProperties(s[..i]);
      assert s[..i + 1][..i] == s[..i];
      r := AddIfAbsent(r, s[i]);
      i := i + 1;
    }
    assert s[..|s|] == s;
    FirstsProperties(s);
  }
}

=== FILE: notifications.dfy ===
/** GET, POST, PUT and DELETE /api/notifications: a visitor's notifications
    newest first with an unread filter and pagination, creation with the
    English texts defaulting to the Vietnamese ones, marking as read, and
    deletion. Every query is scoped to the notification's `userId`. */
module Notifications {

  import opened Common
  import opened Records
  import opened Store
  import opened Paging

  const MissingOdId: string := "odId là bắt buộc / odId is required"
  const MissingFields: string := "Thiếu thông tin bắt buộc / Missing required fields"
  const ServerFailure: string := "Lỗi máy chủ / Server error"

  /** The `data` of a listing. */
  datatype NotePage = NotePage(notifications: seq<Notification>, unreadCount: nat, pagination: Pagination)

  /** The documents the listing query selects: the visitor's, and with
      `unreadOnly` only the unread ones. */
  predicate Selected(n: Notification, odId: string, unreadOnly: bool) {
    n.userId == odId && (!unreadOnly || !n.isRead)
  }

  function Select(ns: seq<Notification>, odId: string, unreadOnly: bool): (r: seq<Notification>)
    ensures forall n :: n in r <==> n in ns && Selected(n, odId, unreadOnly)
    ensures |r| <= |ns|
    ensures r == [] <==> forall n :: n in ns ==> !Selected(n, odId, unreadOnly)
  {
    if ns == [] then []
    else if Selected(ns[0], odId, unreadOnly) then [ns[0]] + Select(ns[1..], odId, unreadOnly)
    else Select(ns[1..], odId, unreadOnly)
  }

  /** `countDocuments({ userId: odId, isRead: false })`. */
  function CountUnread(ns: seq<Notification>, odId: string): (c: nat)
    ensures c <= |ns|
    ensures c == 0 <==> forall n :: n in ns && n.userId == odId ==> n.isRead
  {
    if ns == [] then 0
    else
      assert forall n :: n in ns[1..] ==> n in ns;
      assert forall n :: n in ns ==> n == ns[0] || n in ns[1..];
      (if ns[0].userId == odId && !ns[0].isRead then 1 else 0) + CountUnread(ns[1..], odId)
  }

  /** GET /api/notifications. */
  function ListNotifications(db: Db, odId: string, unreadOnly: bool, page: nat, limit: nat): (r: Result<NotePage>)
    requires page >= 1 && limit >= 1
    ensures r.Fail? <==> !Given(odId)
    ensures r.Fail? ==> r.status == BadRequest
    ensures r.Ok? ==>
      && |r.value.notifications| <= limit
      && (forall n :: n in r.value.notifications ==>
            n in db.notifications && n.userId == odId && (unreadOnly ==> !n.isRead))
      && r.value.unreadCount == CountUnread(db.notifications, odId)
      && r.value.pagination.total == |Select(db.notifications, odId, unreadOnly)|
      && r.value.pagination.totalPages == TotalPages(r.value.pagination.total, limit)
      && (forall k :: 0 <= k < |r.value.notifications| ==>
            Skip(page, limit) + k < r.value.pagination.total
            && r.value.notifications[k] == Select(db.notifications, odId, unreadOnly)[Skip(page, limit) + k])
  {
    if !Given(odId) then Fail(BadRequest, MissingOdId)
    else
      var selected := Select(db.notifications, odId, unreadOnly);
      var shown := PageOf(selected, page, limit);
      assert forall n :: n in shown ==> n in selected;
      Ok(NotePage(shown, CountUnread(db.notifications, odId), MakePagination(page, limit, |selected|)))
  }

  /** The unread count equals the total of the unread-only listing. */
  lemma {:induction false} UnreadCountIsUnreadTotal(ns: seq<Notification>, odId: string)
    ensures CountUnread(ns, odId) == |Select(ns, odId, true)|
  {
    if ns != [] {
      UnreadCountIsUnreadTotal(ns[1..], odId);
    }
  }

  /** The body of POST /api/notifications; `kind` is the raw `type`. */
  datatype CreateRequest = CreateRequest(
    userId: string, kind: string, title: string, titleEn: string,
    message: string, messageEn: string, postId: string,
    fromUserId: string, fromUserName: string, fromUserAvatar: string)

  /** The schema's `type` enumeration read from a string. */
  function ParseKind(s: string): (k: Option<NotificationType>)
    ensures k.Some? ==> k.value.Name() == s
    ensures k.None? ==> s !in {"like", "comment", "retweet", "mention", "follow", "system"}
  {
    if s == "like" then Some(LikeNote)
    else if s == "comment" then Some(CommentNote)
    else if s == "retweet" then Some(RetweetNote)
    else if s == "mention" then Some(MentionNote)
    else if s == "follow" then Some(FollowNote)
    else if s == "system" then Some(SystemNote)
    else None
  }

  /** POST /api/notifications. A `type` outside the enumeration fails the
      schema's validation inside the create, which the handler answers
      with a 500. */
  function CreateNotification(db: Db, req: CreateRequest, env: Env): (r: Result<Reply<Notification>>)
    ensures r.Fail? <==>
      !Given(req.userId) || !Given(req.kind) || !Given(req.title) || !Given(req.message)
      || ParseKind(req.kind).None?
    ensures r.Fail? && (!Given(req.userId) || !Given(req.kind) || !Given(req.title) || !Given(req.message)) ==>
      r == Fail(BadRequest, MissingFields)
    ensures r.Fail? && Given(req.userId) && Given(req.kind) && Given(req.title) && Given(req.message) ==>
      r == Fail(ServerError, ServerFailure)
    ensures r.Ok? ==>
      var n := r.value.body;
      && r.value.db == db.(notifications := [n] + db.notifications)
      && n.userId == req.userId && n.kind.Name() == req.kind
      && n.title == req.title && n.message == req.message
      && n.titleEn == (if Given(req.titleEn) then req.titleEn else req.title)
      && n.messageEn == (if Given(req.messageEn) then req.messageEn else req.message)
      && !n.isRead
      && NotificationSchemaOk(n)
  {
    if !Given(req.userId) || !Given(req.kind) || !Given(req.title) || !Given(req.message) then
      Fail(BadRequest, MissingFields)
    else
      match ParseKind(req.kind)
      case None => Fail(ServerError, ServerFailure)
      case Some(k) =>
        var n := Notification(env.freshId, req.userId, k, req.title, OrElse(req.titleEn, req.title),
                              req.message, OrElse(req.messageEn, req.message),
                              Optional(req.postId), Optional(req.fromUserId),
                              Optional(req.fromUserName), Optional(req.fromUserAvatar),
                              false, env.clock);
        Ok(Reply(db.(notifications := [n] + db.notifications), n))
  }

  /** A notification just created is the first of its addressee's listing
      and counts as unread. */
  lemma CreatedIsListedFirst(db: Db, req: CreateRequest, env: Env)
    requires CreateNotification(db, req, env).Ok?
    ensures var r := CreateNotification(db, req, env).value;
      var sel := Select(r.db.notifications, req.userId, false);
      && sel != [] && sel[0] == r.body
      && CountUnread(r.db.notifications, req.userId) == CountUnread(db.notifications, req.userId) + 1
  {
    var r := CreateNotification(db, req, env).value;
    assert r.db.notifications[1..] == db.notifications;
  }

  /** A notification created at the current tick keeps the store newest
      first, so the stored order is the listing's `createdAt` order. */
  lemma CreateKeepsNewestFirst(db: Db, req: CreateRequest, env: Env)
    requires NewestFirst(db) && ClockAhead(db, env) && CreateNotification(db, req, env).Ok?
    ensures var after := CreateNotification(db, req, env).value.db;
      NewestFirst(after) && ClockAhead(after, env)
  {
    var after := CreateNotification(db, req, env).value.db;
    NoteInFront(after.notifications[0], db.notifications, env.clock);
  }

  /** Which documents a mark-as-read request touches: with `markAllRead` all
      of the visitor's, otherwise the visitor's whose identifier is listed. */
  predicate Marks(n: Notification, odId: string, ids: Option<seq<string>>, markAll: bool) {
    n.userId == odId && (markAll || (ids.Some? && n.id in ids.value))
  }

  function MarkEach(ns: seq<Notification>, odId: string, ids: Option<seq<string>>, markAll: bool): (r: seq<Notification>)
    ensures |r| == |ns|
    ensures forall i :: 0 <= i < |ns| ==>
      r[i] == (if Marks(ns[i], odId, ids, markAll) then ns[i].(isRead := true) else ns[i])
  {
    if ns == [] then []
    else
      var m := if Marks(ns[0], odId, ids, markAll) then ns[0].(isRead := true) else ns[0];
      [m] + MarkEach(ns[1..], odId, ids, markAll)
  }

  /** PUT /api/notifications; the answer is the visitor's unread count
      afterwards. `ids` is `notificationIds` when it is an array. */
  function MarkRead(db: Db, odId: string, ids: Option<seq<string>>, markAll: bool): (r: Result<Reply<nat>>)
    ensures r.Fail? <==> !Given(odId)
    ensures r.Fail? ==> r.status == BadRequest
    ensures r.Ok? ==>
      && r.value.body == CountUnread(r.value.db.notifications, odId)
      && r.value.db.posts == db.posts && r.value.db.comments == db.comments
      && r.value.db.users == db.users && r.value.db.stats == db.stats
      && |r.value.db.notifications| == |db.notifications|
      && (forall i :: 0 <= i < |db.notifications| ==>
            var n := db.notifications[i];
            var m := r.value.db.notifications[i];
            && m.(isRead := n.isRead) == n
            && (m.isRead <==> n.isRead || Marks(n, odId, ids, markAll)))
  {
    if !Given(odId) then Fail(BadRequest, MissingOdId)
    else
      var ns := MarkEach(db.notifications, odId, ids, markAll);
      Ok(Reply(db.(notifications := ns), CountUnread(ns, odId)))
  }

  /** Marking all as read leaves the visitor nothing unread, and the answer
      says so. */
  lemma MarkAllLeavesNoneUnread(db: Db, odId: string, ids: Option<seq<string>>)
    requires Given(odId)
    ensures var r := MarkRead(db, odId, ids, true);
      r.Ok? && r.value.body == 0
  {
    var ns := MarkRead(db, odId, ids, true).value.db.notifications;
    forall n | n in ns && n.userId == odId ensures n.isRead {
      var i :| 0 <= i < |ns| && ns[i] == n;
    }
  }

  /** Marking as read never raises anyone's unread count and leaves every
      other visitor's count as it was. */
  lemma {:induction false} MarkNeverRaisesUnread(ns: seq<Notification>, odId: string, ids: Option<seq<string>>, markAll: bool, other: string)
    ensures CountUnread(MarkEach(ns, odId, ids, markAll), other) <= CountUnread(ns, other)
    ensures other != odId ==> CountUnread(MarkEach(ns, odId, ids, markAll), other) == CountUnread(ns, other)
  {
    if ns != [] {
      var r := MarkEach(ns, odId, ids, markAll);
      assert r[1..] == MarkEach(ns[1..], odId, ids, markAll);
      MarkNeverRaisesUnread(ns[1..], odId, ids, markAll, other);
    }
  }

  /** Marking the same request twice is the same as once. */
  lemma MarkIsIdempotent(db: Db, odId: string, ids: Option<seq<string>>, markAll: bool)
    requires Given(odId)
    ensures var once := MarkRead(db, odId, ids, markAll).value;
      MarkRead(once.db, odId, ids, markAll) == Ok(once)
  {
    var once := MarkRead(db, odId, ids, markAll).value;
    var twice := MarkEach(once.db.notifications, odId, ids, markAll);
    assert twice == once.db.notifications;
  }

  /** The notifications that survive a delete request. */
  function Keep(ns: seq<Notification>, odId: string, notificationId: string, deleteAll: bool): seq<Notification> {
    if deleteAll then Others(ns, odId)
    else if Given(notificationId) then WithoutFirst(ns, odId, notificationId)
    else ns
  }

  /** `deleteMany({ userId: odId })`: every other visitor's notifications, in
      order. */
  function Others(ns: seq<Notification>, odId: string): (r: seq<Notification>)
    ensures forall n :: n in r <==> n in ns && n.userId != odId
  {
    if ns == [] then []
    else if ns[0].userId == odId then Others(ns[1..], odId)
    else [ns[0]] + Others(ns[1..], odId)
  }

  /** The notification is the one a delete names: its identifier, addressed
      to the visitor. */
  predicate Matches(n: Notification, odId: string, id: string) {
    n.id == id && n.userId == odId
  }

  /** The position of the first notification the delete names, or -1. */
  function FirstMatch(ns: seq<Notification>, odId: string, id: string): (i: int)
    ensures -1 <= i < |ns|
    ensures i == -1 <==> forall j :: 0 <= j < |ns| ==> !Matches(ns[j], odId, id)
    ensures i >= 0 ==> Matches(ns[i], odId, id) && forall j :: 0 <= j < i ==> !Matches(ns[j], odId, id)
  {
    if ns == [] then -1
    else if Matches(ns[0], odId, id) then 0
    else
      var t := FirstMatch(ns[1..], odId, id);
      if t == -1 then -1 else t + 1
  }

  /** `findOneAndDelete({ _id, userId: odId })`: the first match removed. */
  function WithoutFirst(ns: seq<Notification>, odId: string, id: string): (r: seq<Notification>)
    ensures |r| == |ns| || |r| == |ns| - 1
    ensures |r| == |ns| <==> forall n :: n in ns ==> !Matches(n, odId, id)
    ensures |r| == |ns| ==> r == ns
    ensures forall n :: n in r ==> n in ns
    ensures |r| == |ns| - 1 ==>
      exists i :: 0 <= i < |ns| && Matches(ns[i], odId, id)
        && (forall j :: 0 <= j < i ==> !Matches(ns[j], odId, id))
        && r == ns[..i] + ns[i + 1..]
  {
    var i := FirstMatch(ns, odId, id);
    if i < 0 then ns
    else
      assert ns == ns[..i] + [ns[i]] + ns[i + 1..];
      ns[..i] + ns[i + 1..]
  }

  /** DELETE /api/notifications. */
  function DeleteNotifications(db: Db, odId: string, notificationId: string, deleteAll: bool): (r: Result<Reply<string>>)
    ensures r.Fail? <==> !Given(odId)
    ensures r.Fail? ==> r.status == BadRequest
    ensures r.Ok? ==>
      && r.value.db == db.(notifications := Keep(db.notifications, odId, notificationId, deleteAll))
      && (deleteAll ==> forall n :: n in r.value.db.notifications ==> n.userId != odId)
      && (!deleteAll && !Given(notificationId) ==> r.value.db == db)
  {
    if !Given(odId) then Fail(BadRequest, MissingOdId)
    else Ok(Reply(db.(notifications := Keep(db.notifications, odId, notificationId, deleteAll)),
                  "Đã xóa thông báo / Notifications deleted"))
  }

  /** No delete request removes another visitor's notification: what was
      addressed to someone else is kept, in the same order. */
  lemma {:induction false} DeleteKeepsOthers(ns: seq<Notification>, odId: string, notificationId: string, deleteAll: bool, other: string)
    requires other != odId
    ensures Select(Keep(ns, odId, notificationId, deleteAll), other, false) == Select(ns, other, false)
  {
    if deleteAll {
      OthersKeeps(ns, odId, other);
    } else if Given(notificationId) {
      WithoutFirstKeeps(ns, odId, notificationId, other);
    }
  }

  lemma {:induction false} OthersKeeps(ns: seq<Notification>, odId: string, other: string)
    requires other != odId
    ensures Select(Others(ns, odId), other, false) == Select(ns, other, false)
  {
    if ns != [] {
      OthersKeeps(ns[1..], odId, other);
      if ns[0].userId != odId {
        assert ([ns[0]] + Others(ns[1..], odId))[1..] == Others(ns[1..], odId);
      }
    }
  }

  lemma {:induction false} WithoutFirstKeeps(ns: seq<Notification>, odId: string, id: string, other: string)
    requires other != odId
    ensures Select(WithoutFirst(ns, odId, id), other, false) == Select(ns, other, false)
  {
    var i := FirstMatch(ns, odId, id);
    if i >= 0 {
      assert ns == ns[..i] + ([ns[i]] + ns[i + 1..]);
      SelectSplit(ns[..i], [ns[i]] + ns[i + 1..], other, false);
      SelectSplit(ns[..i], ns[i + 1..], other, false);
      assert ([ns[i]] + ns[i + 1..])[1..] == ns[i + 1..];
    }
  }

  /** Selecting from a concatenation selects from each part. */
  lemma {:induction false} SelectSplit(a: seq<Notification>, b: seq<Notification>, odId: string, unreadOnly: bool)
    ensures Select(a + b, odId, unreadOnly) == Select(a, odId, unreadOnly) + Select(b, odId, unreadOnly)
  {
    if a == [] {
      assert a + b == b;
    } else {
      assert (a + b)[1..] == a[1..] + b;
      SelectSplit(a[1..], b, odId, unreadOnly);
    }
  }

  /** After deleting all, the visitor's listing is empty and nothing is
      unread. */
  lemma DeleteAllEmptiesListing(db: Db, odId: string, notificationId: string)
    requires Given(odId)
    ensures var d := DeleteNotifications(db, odId, notificationId, true).value.db;
      Select(d.notifications, odId, false) == [] && CountUnread(d.notifications, odId) == 0
  {
  }
}

=== FILE: paging.dfy ===
/** Offset pagination as the list handlers do it: `skip = (page - 1) * limit`,
    `.skip(skip).limit(limit)` on an already ordered result, and
    `totalPages = Math.ceil(total / limit)`.

    `page` and `limit` come from `parseInt` with defaults 1 and 20; the model
    takes them as positive numbers. */
module Paging {

  import opened Common

  /** The `pagination` object of a list response. */
  datatype Pagination = Pagination(page: nat, limit: nat, total: nat, totalPages: nat)

  const DefaultPage: nat := 1
  const DefaultLimit: nat := 20

  /** `(page - 1) * limit`. */
  function Skip(page: nat, limit: nat): nat
    requires page >= 1
  {
    (page - 1) * limit
  }

  /** `Math.ceil(total / limit)`: the least number of pages of `limit` items
      that hold `total` items. */
  function TotalPages(total: nat, limit: nat): (r: nat)
    requires limit >= 1
    ensures r * limit >= total
    ensures r == 0 || (r - 1) * limit < total
  {
    var r := (total + limit - 1) / limit;
    assert r * limit + (total + limit - 1) % limit == total + limit - 1;
    assert (r - 1) * limit == r * limit - limit;
    r
  }

  /** `.skip((page - 1) * limit).limit(limit)` on an ordered result. */
  function PageOf<T>(items: seq<T>, page: nat, limit: nat): (r: seq<T>)
    requires page >= 1
    ensures |r| == Min(limit, Max(0, |items| - Skip(page, limit)))
    ensures forall k :: 0 <= k < |r| ==> Skip(page, limit) + k < |items| && r[k] == items[Skip(page, limit) + k]
  {
    var lo := Min(Skip(page, limit), |items|);
    var hi := Min(lo + limit, |items|);
    items[lo..hi]
  }

  function MakePagination(page: nat, limit: nat, total: nat): (p: Pagination)
    requires limit >= 1
  {
    Pagination(page, limit, total, TotalPages(total, limit))
  }

  /** Every item of an ordered result is shown exactly where the page
      arithmetic puts it: item `i` is entry `i % limit` of page
      `i / limit + 1`, and that page is within `totalPages`. */
  lemma ItemOnItsPage<T>(items: seq<T>, limit: nat, i: nat)
    requires limit >= 1 && i < |items|
    ensures 1 <= i / limit + 1 <= TotalPages(|items|, limit)
    ensures i % limit < |PageOf(items, i / limit + 1, limit)|
    ensures PageOf(items, i / limit + 1, limit)[i % limit] == items[i]
  {
    var q := i / limit;
    var m := i % limit;
    var t := TotalPages(|items|, limit);
    assert i == q * limit + m;
    assert Skip(q + 1, limit) == q * limit;
    ScaleLess(q, t, limit);
  }

  /** Dividing both sides of `a * l < b * l` by a positive `l`. */
  lemma ScaleLess(a: int, b: int, l: int)
    requires l >= 1 && a * l < b * l
    ensures a < b
  {
  }

  /** Pages after `totalPages` are empty, and (for a non-empty result) no page
      up to it is: `totalPages` counts exactly the non-empty pages. */
  lemma PagesWithinTotal<T>(items: seq<T>, limit: nat, page: nat)
    requires limit >= 1 && page >= 1
    ensures PageOf(items, page, limit) == [] <==> page > TotalPages(|items|, limit)
  {
    var t := TotalPages(|items|, limit);
    var s := Skip(page, limit);
    if page > t {
      MulMono(t, page - 1, limit);
      assert s >= |items|;
    } else {
      MulMono(page - 1, t - 1, limit);
      assert s < |items|;
    }
  }

  /** Multiplying by a natural number keeps the order. */
  lemma MulMono(a: int, b: int, l: nat)
    requires a <= b
    ensures a * l <= b * l
  {
    assert b * l - a * l == (b - a) * l;
  }
}

=== FILE: photo.dfy ===
/** The photo post form: a text of at most 280 characters shown as a
    budget, and up to four attached photos, each with a preview URL. */
module PhotoPost {

  import Text
  import Common

  const MaxPhotos: nat := 4
  const MaxCharacters: int := 280

  /** The form state: `previews[i]` is the preview URL of `photos[i]`. The
      photo files themselves are opaque identifiers. */
  datatype Form = Form(content: string, photos: seq<string>, previews: seq<string>)

  /** Every photo has exactly one preview, there are at most four, and the
      text area (`maxLength` 280) holds at most 280 characters. */
  predicate Valid(f: Form) {
    |f.photos| == |f.previews| && |f.photos| <= MaxPhotos && |f.content| <= MaxCharacters
  }

  /** `handleTextareaChange`: the text area keeps at most 280 characters of
      what is entered, and the handler stores its value. */
  function TypeText(f: Form, input: string): (r: Form)
    ensures |r.content| <= MaxCharacters && r.content <= input
    ensures |input| <= MaxCharacters ==> r.content == input
    ensures |input| > MaxCharacters ==> |r.content| == MaxCharacters
    ensures r == f.(content := r.content)
  {
    f.(content := Text.Prefix(input, MaxCharacters as nat))
  }

  const Empty: Form := Form("", [], [])

  /** `handlePhotoSelect`: the chosen files are appended, the list is cut to
      the first four, and the previews are made afresh from the result.
      `preview` stands for `URL.createObjectURL`. */
  function SelectPhotos(f: Form, files: seq<string>, preview: string -> string): (r: Form)
    ensures files != [] ==> (Valid(r) <==> |f.content| <= MaxCharacters)
    ensures files == [] ==> r == f
    ensures files != [] ==>
      && r.content == f.content
      && |r.photos| == Common.Min(|f.photos| + |files|, MaxPhotos)
      && r.photos <= f.photos + files
      && |r.previews| == |r.photos|
      && (forall i :: 0 <= i < |r.previews| ==> r.previews[i] == preview(r.photos[i]))
  {
    if files == [] then f
    else
      var photos := Prefix(f.photos + files, MaxPhotos);
      Form(f.content, photos, seq(|photos|, i requires 0 <= i < |photos| => preview(photos[i])))
  }

  /** `.slice(0, n)` on a list. */
  function Prefix(s: seq<string>, n: nat): (r: seq<string>)
    ensures |r| == if |s| <= n then |s| else n
    ensures r <= s
  {
    if |s| <= n then s else s[..n]
  }

  /** `filter((_, i) => i !== index)`: the list without position `index`;
      an index outside the list removes nothing. */
  function WithoutIndex(s: seq<string>, index: int): (r: seq<string>)
    ensures 0 <= index < |s| ==> r == s[..index] + s[index + 1..]
    ensures !(0 <= index < |s|) ==> r == s
  {
    if 0 <= index < |s| then s[..index] + s[index + 1..] else s
  }

  /** `removePhoto`. */
  function RemovePhoto(f: Form, index: int): (r: Form)
    ensures Valid(f) ==> Valid(r)
    ensures 0 <= index < |f.photos| ==> |r.photos| == |f.photos| - 1
    ensures r.content == f.content
  {
    Form(f.content, WithoutIndex(f.photos, index), WithoutIndex(f.previews, index))
  }

  /** Removing keeps every other photo with its own preview, in order. */
  lemma RemoveKeepsPairs(f: Form, index: int)
    requires Valid(f) && 0 <= index < |f.photos|
    ensures var r := RemovePhoto(f, index);
      forall i :: 0 <= i < |r.photos| ==>
        var j := if i < index then i else i + 1;
        r.photos[i] == f.photos[j] && r.previews[i] == f.previews[j]
  {
  }

  /** `canPost`. */
  predicate CanPost(f: Form) {
    |Text.Trim(f.content)| > 0 || |f.photos| > 0
  }

  /** `handlePost`: with something to post, the content and the photos are
      handed over and the form is cleared; otherwise nothing happens. */
  function HandlePost(f: Form): (r: (Form, bool))
    ensures r.1 <==> CanPost(f)
    ensures r.1 ==> r.0 == Empty
    ensures !r.1 ==> r.0 == f
  {
    if CanPost(f) then (Empty, true) else (f, false)
  }

  /** A form can post exactly when its text is not blank or it holds a
      photo. */
  lemma CanPostIffContent(f: Form)
    ensures CanPost(f) <==> !Text.Blank(f.content) || f.photos != []
  {
    Text.TrimEmptyIffBlank(f.content);
  }

  /** The number shown beside the post button. */
  function Remaining(f: Form): (r: int)
    ensures r + |f.content| == MaxCharacters
    ensures r >= 0 <==> |f.content| <= MaxCharacters
    ensures Valid(f) ==> 0 <= r <= MaxCharacters
  {
    MaxCharacters - |f.content|
  }

  /** Starting from a valid form, typing, every selection and removal, and
      posting keep the photo and preview lists paired and at most four long
      and the text within 280 characters. */
  lemma StepsKeepValid(f: Form, input: string, files: seq<string>, preview: string -> string, index: int)
    requires Valid(f)
    ensures Valid(TypeText(f, input))
    ensures Valid(SelectPhotos(f, files, preview))
    ensures Valid(RemovePhoto(f, index))
    ensures Valid(HandlePost(f).0)
  {
  }

  /** Selecting keeps the photos already chosen, in front, and adds the new
      ones in order while there is room. */
  lemma SelectKeepsEarliest(f: Form, files: seq<string>, preview: string -> string)
    requires Valid(f) && files != []
    ensures var r := SelectPhotos(f, files, preview);
      && r.photos[..|f.photos|] == f.photos
      && forall i :: 0 <= i < |r.photos| - |f.photos| ==> r.photos[|f.photos| + i] == files[i]
  {
    var r := SelectPhotos(f, files, preview);
    assert (f.photos + files)[..|f.photos|] == f.photos;
    forall i | 0 <= i < |r.photos| - |f.photos| ensures r.photos[|f.photos| + i] == files[i] {
      assert r.photos[|f.photos| + i] == (f.photos + files)[|f.photos| + i];
    }
  }
}

=== FILE: posts.dfy ===
/** GET and POST /api/posts: the sorted, paginated feed listing (converted to
    the feed's post shape) and post creation with its field defaults.

    The topic and search filters are regular-expression queries; the model
    takes the documents they match, in stored order, as the `matched`
    argument of the listing. */
module Posts {

  import opened Common
  import opened Records
  import opened Store
  import opened Paging
  import Text

  /** The listing's `sortBy` choices, each a descending sort on one field. */
  datatype SortField = ByLikes | ByRetweets | ByReplies | ByNewest

  /** `sortBy`: "likes", "retweets", "replies" or "newest"; anything else,
      and an absent value, sorts by likes. */
  function SortFieldOf(sortBy: string): (f: SortField)
    ensures f == ByRetweets <==> sortBy == "retweets"
    ensures f == ByReplies <==> sortBy == "replies"
    ensures f == ByNewest <==> sortBy == "newest"
  {
    if sortBy == "retweets" then ByRetweets
    else if sortBy == "replies" then ByReplies
    else if sortBy == "newest" then ByNewest
    else ByLikes
  }

  function SortKey(f: SortField, p: Post): int {
    match f
    case ByLikes => p.likes
    case ByRetweets => p.retweets
    case ByReplies => p.replies
    case ByNewest => p.createdAt
  }

  /** Ordered by the sort field, largest first. */
  predicate SortedDesc(f: SortField, ps: seq<Post>) {
    forall i, j :: 0 <= i < j < |ps| ==> SortKey(f, ps[i]) >= SortKey(f, ps[j])
  }

  /** Put `x` into a sorted sequence in front of the first post whose key is
      not larger than its own. */
  function Insert(f: SortField, x: Post, ps: seq<Post>): (r: seq<Post>)
    requires SortedDesc(f, ps)
    ensures SortedDesc(f, r)
    ensures multiset(r) == multiset(ps) + multiset{x}
    ensures |r| == |ps| + 1
  {
    if ps == [] || SortKey(f, ps[0]) <= SortKey(f, x) then
      HeadIsMax(f, ps);
      ConsSorted(f, x, ps);
      [x] + ps
    else
      SortedTail(f, ps);
      var t := Insert(f, x, ps[1..]);
      assert ps == [ps[0]] + ps[1..];
      HeadIsMax(f, ps);
      BoundedMerge(f, t, ps[1..], x, SortKey(f, ps[0]));
      ConsSorted(f, ps[0], t);
      [ps[0]] + t
  }

  /** The first post of a sorted sequence has the largest key. */
  lemma HeadIsMax(f: SortField, ps: seq<Post>)
    requires SortedDesc(f, ps)
    ensures ps != [] ==> forall q :: q in ps ==> SortKey(f, q) <= SortKey(f, ps[0])
  {
    forall q | q in ps ensures SortKey(f, q) <= SortKey(f, ps[0]) {
      var k :| 0 <= k < |ps| && ps[k] == q;
      if k > 0 {
        assert SortKey(f, ps[0]) >= SortKey(f, ps[k]);
      }
    }
  }

  /** A bound on every key of `ps` and on `x` bounds every key of a
      sequence made of exactly those posts. */
  lemma BoundedMerge(f: SortField, t: seq<Post>, ps: seq<Post>, x: Post, b: int)
    requires multiset(t) == multiset(ps) + multiset{x}
    requires forall q :: q in ps ==> SortKey(f, q) <= b
    requires SortKey(f, x) <= b
    ensures forall q :: q in t ==> SortKey(f, q) <= b
  {
    forall q | q in t ensures SortKey(f, q) <= b {
      assert q in multiset(t);
      if q != x {
        assert q in multiset(ps);
      }
    }
  }

  lemma SortedTail(f: SortField, ps: seq<Post>)
    requires ps != [] && SortedDesc(f, ps)
    ensures SortedDesc(f, ps[1..])
  {
    forall i, j | 0 <= i < j < |ps[1..]| ensures SortKey(f, ps[1..][i]) >= SortKey(f, ps[1..][j]) {
      assert ps[1..][i] == ps[i + 1] && ps[1..][j] == ps[j + 1];
    }
  }

  lemma ConsSorted(f: SortField, x: Post, ps: seq<Post>)
    requires SortedDesc(f, ps) && forall q :: q in ps ==> SortKey(f, q) <= SortKey(f, x)
    ensures SortedDesc(f, [x] + ps)
  {
    var r := [x] + ps;
    forall i, j | 0 <= i < j < |r| ensures SortKey(f, r[i]) >= SortKey(f, r[j]) {
      assert r[j] == ps[j - 1] && r[j] in ps;
      if i > 0 {
        assert r[i] == ps[i - 1];
      }
    }
  }

  /** `.sort({ field: -1 })`: the matched posts, reordered largest first. */
  function SortPosts(f: SortField, ps: seq<Post>): (r: seq<Post>)
    ensures SortedDesc(f, r)
    ensures multiset(r) == multiset(ps)
    ensures |r| == |ps|
  {
    if ps == [] then []
    else
      assert ps == [ps[0]] + ps[1..];
      Insert(f, ps[0], SortPosts(f, ps[1..]))
  }

  /** One stored post as the feed shows it. The avatar is derived from the
      handle with its first '@' removed; every author is shown verified. */
  function ToSocialPost(p: Post): (s: SocialPost)
    ensures s.id == p.postId && s.content == p.content && s.timestamp == p.timestamp
    ensures s.stats == PostStats(p.likes, p.retweets, p.replies)
    ensures s.author.name == p.authorName && s.author.handle == p.authorHandle && s.author.isVerified
    ensures s.postType == p.postType && s.topic == Some(p.topic)
  {
    SocialPost(p.postId,
               Author(p.authorName, p.authorHandle, AvatarBase + Text.RemoveFirst(p.authorHandle, '@'), true),
               p.content, p.timestamp,
               PostStats(p.likes, p.retweets, p.replies), p.postType, Some(p.topic))
  }

  /** The avatar of a handle written '@name' is seeded with 'name'. */
  lemma AvatarSeed(p: Post, name: string)
    requires p.authorHandle == "@" + name
    ensures ToSocialPost(p).author.avatarUrl == AvatarBase + name
  {
    Text.RemoveFirstAt(p.authorHandle, '@');
    assert p.authorHandle[1..] == name;
  }

  /** The listing response: one page of feed posts and its pagination. */
  datatype PostPage = PostPage(data: seq<SocialPost>, pagination: Pagination)

  const FetchFailed: string := "Lỗi lấy dữ liệu / Error fetching posts"

  /** The record names its author. Creation always gives a handle (the
      request's or '@user') and the schema requires one, so a record without
      it is one the comment upsert created, where the field is undefined. */
  predicate Authored(p: Post) {
    Given(p.authorHandle)
  }

  /** The records of one page of the listing, in the requested order. */
  function Shown(matched: seq<Post>, sortBy: string, page: nat, limit: nat): seq<Post>
    requires page >= 1
  {
    PageOf(SortPosts(SortFieldOf(sortBy), matched), page, limit)
  }

  /** Every record of a page names its author. */
  predicate AllAuthored(shown: seq<Post>) {
    forall k :: 0 <= k < |shown| ==> Authored(shown[k])
  }

  /** GET /api/posts, given the documents the filters match. Rendering a post
      calls `replace` on its handle, which throws for a record without one,
      and the handler answers 500. */
  function ListPosts(matched: seq<Post>, sortBy: string, page: nat, limit: nat): (r: Result<PostPage>)
    requires page >= 1 && limit >= 1
    ensures r.Fail? <==> exists k :: 0 <= k < |Shown(matched, sortBy, page, limit)|
                                     && !Authored(Shown(matched, sortBy, page, limit)[k])
    ensures r.Fail? ==> r == Fail(ServerError, FetchFailed)
    ensures r.Ok? ==> |r.value.data| <= limit
    ensures r.Ok? ==> r.value.pagination == Pagination(page, limit, |matched|, TotalPages(|matched|, limit))
    ensures r.Ok? ==>
      var sorted := SortPosts(SortFieldOf(sortBy), matched);
      |r.value.data| == |PageOf(sorted, page, limit)|
      && forall k :: 0 <= k < |r.value.data| ==> r.value.data[k] == ToSocialPost(sorted[Skip(page, limit) + k])
  {
    var shown := Shown(matched, sortBy, page, limit);
    if !AllAuthored(shown) then Fail(ServerError, FetchFailed)
    else Ok(PostPage(Render(shown), MakePagination(page, limit, |matched|)))
  }

  /** When every matched record names its author, every page is answered. */
  lemma AuthoredListsSucceed(matched: seq<Post>, sortBy: string, page: nat, limit: nat)
    requires page >= 1 && limit >= 1
    requires forall p :: p in matched ==> Authored(p)
    ensures ListPosts(matched, sortBy, page, limit).Ok?
  {
    var sorted := SortPosts(SortFieldOf(sortBy), matched);
    var shown := PageOf(sorted, page, limit);
    forall k | 0 <= k < |shown| ensures Authored(shown[k]) {
      assert shown[k] == sorted[Skip(page, limit) + k];
      assert shown[k] in multiset(matched);
    }
  }

  /** The feed shape of each post of a page, in order. */
  function Render(shown: seq<Post>): (d: seq<SocialPost>)
    ensures |d| == |shown| && forall k :: 0 <= k < |d| ==> d[k] == ToSocialPost(shown[k])
  {
    seq(|shown|, k requires 0 <= k < |shown| => ToSocialPost(shown[k]))
  }

  /** A page comes out in the requested order: by likes, retweets or replies
      the shown counter never increases down the page; every shown post is
      one of the matched ones. */
  lemma ListedInOrder(matched: seq<Post>, sortBy: string, page: nat, limit: nat)
    requires page >= 1 && limit >= 1
    ensures var r := ListPosts(matched, sortBy, page, limit);
      r.Ok? ==>
      var d := r.value.data;
      var f := SortFieldOf(sortBy);
      && (forall s :: s in d ==> exists p :: p in matched && s == ToSocialPost(p))
      && (f == ByLikes ==> forall i, j :: 0 <= i < j < |d| ==> d[i].stats.likes >= d[j].stats.likes)
      && (f == ByRetweets ==> forall i, j :: 0 <= i < j < |d| ==> d[i].stats.retweets >= d[j].stats.retweets)
      && (f == ByReplies ==> forall i, j :: 0 <= i < j < |d| ==> d[i].stats.replies >= d[j].stats.replies)
  {
    var f := SortFieldOf(sortBy);
    var sorted := SortPosts(f, matched);
    var shown := PageOf(sorted, page, limit);
    ShownFromMatched(matched, sorted, page, limit);
    PageSorted(f, sorted, page, limit);
    ShownInOrder(f, shown);
  }

  /** Every entry of a page drawn from a permutation of `matched` is one of
      the matched posts. */
  lemma ShownFromMatched(matched: seq<Post>, sorted: seq<Post>, page: nat, limit: nat)
    requires multiset(sorted) == multiset(matched) && page >= 1
    ensures forall s :: s in Render(PageOf(sorted, page, limit)) ==> exists p :: p in matched && s == ToSocialPost(p)
  {
    var shown := PageOf(sorted, page, limit);
    var o := Skip(page, limit);
    var d := Render(shown);
    forall s | s in d ensures exists p :: p in matched && s == ToSocialPost(p) {
      var k :| 0 <= k < |d| && d[k] == s;
      assert shown[k] == sorted[o + k];
      assert shown[k] in multiset(sorted);
      assert shown[k] in matched;
    }
  }

  /** A page of a sorted result is sorted. */
  lemma PageSorted(f: SortField, sorted: seq<Post>, page: nat, limit: nat)
    requires page >= 1 && SortedDesc(f, sorted)
    ensures SortedDesc(f, PageOf(sorted, page, limit))
  {
    var shown := PageOf(sorted, page, limit);
    var o := Skip(page, limit);
    forall i, j | 0 <= i < j < |shown| ensures SortKey(f, shown[i]) >= SortKey(f, shown[j]) {
      assert shown[i] == sorted[o + i] && shown[j] == sorted[o + j];
    }
  }

  lemma ShownInOrder(f: SortField, shown: seq<Post>)
    requires SortedDesc(f, shown)
    ensures var d := Render(shown);
      && (f == ByLikes ==> forall i, j :: 0 <= i < j < |d| ==> d[i].stats.likes >= d[j].stats.likes)
      && (f == ByRetweets ==> forall i, j :: 0 <= i < j < |d| ==> d[i].stats.retweets >= d[j].stats.retweets)
      && (f == ByReplies ==> forall i, j :: 0 <= i < j < |d| ==> d[i].stats.replies >= d[j].stats.replies)
  {
    var d := Render(shown);
    forall i, j | 0 <= i < j < |d| ensures SortKey(f, shown[i]) >= SortKey(f, shown[j]) {
    }
  }

  /** Every matched post is shown on exactly the page the arithmetic puts its
      sorted position on. */
  lemma EveryPostListed(matched: seq<Post>, sortBy: string, limit: nat, i: nat)
    requires limit >= 1 && i < |matched|
    ensures var sorted := SortPosts(SortFieldOf(sortBy), matched);
      var page := i / limit + 1;
      var r := ListPosts(matched, sortBy, page, limit);
      && 1 <= page <= TotalPages(|matched|, limit)
      && (!Authored(sorted[i]) ==> r.Fail?)
      && (r.Ok? ==> i % limit < |r.value.data| && r.value.data[i % limit] == ToSocialPost(sorted[i]))
  {
    var sorted := SortPosts(SortFieldOf(sortBy), matched);
    ItemOnItsPage(sorted, limit, i);
  }

  /** The body of POST /api/posts. `postType` is the raw `type` string. */
  datatype CreateRequest = CreateRequest(
    postId: string, topic: string, authorName: string, authorHandle: string,
    content: string, timestamp: string, postType: string, imageUrl: string)

  const MissingFields: string := "postId và content là bắt buộc / postId and content are required"
  const CreateFailed: string := "Lỗi tạo bài viết / Error creating post"

  /** The schema's `type` enumeration read from a string; "" is the default
      'post', anything outside the enumeration is rejected. */
  function ParsePostType(s: string): (t: Option<PostType>)
    ensures t.Some? <==> s in {"", "post", "reply", "news"}
    ensures t.Some? && Given(s) ==> t.value.Name() == s
  {
    if s == "" || s == "post" then Some(TypePost)
    else if s == "reply" then Some(TypeReply)
    else if s == "news" then Some(TypeNews)
    else None
  }

  /** The document `Post.create` is given, as the handler writes it: the
      request's `imageUrl` is not among the fields it reads. */
  function NewPost(req: CreateRequest, t: PostType, env: Env): Post {
    Post(req.postId,
         OrElse(req.topic, "General"),
         OrElse(req.authorName, "Người dùng"),
         OrElse(req.authorHandle, "@user"),
         None, req.content,
         OrElse(req.timestamp, env.isoNow),
         t, None, 0, 0, 0, [], [], env.clock)
  }

  /** The shared checks of post creation and the insertion of `post`:
      missing ids are a 400; a type outside the enumeration and an existing
      `postId` (the unique index) make the create throw, a 500. */
  function Create(db: Db, req: CreateRequest, post: PostType -> Post): (r: Result<Reply<Post>>)
    ensures r.Fail? <==>
      !Given(req.postId) || !Given(req.content) || ParsePostType(req.postType).None? || req.postId in db.posts
    ensures r.Fail? && (!Given(req.postId) || !Given(req.content)) ==> r == Fail(BadRequest, MissingFields)
    ensures r.Fail? && Given(req.postId) && Given(req.content) ==> r == Fail(ServerError, CreateFailed)
    ensures r.Ok? ==>
      && r.value.body == post(ParsePostType(req.postType).value)
      && r.value.db == db.(posts := db.posts[req.postId := r.value.body])
  {
    if !Given(req.postId) || !Given(req.content) then Fail(BadRequest, MissingFields)
    else
      var t := ParsePostType(req.postType);
      if t.None? || req.postId in db.posts then Fail(ServerError, CreateFailed)
      else
        var p := post(t.value);
        Ok(Reply(db.(posts := db.posts[req.postId := p]), p))
  }

  /** POST /api/posts as written. */
  function CreatePost(db: Db, req: CreateRequest, env: Env): (r: Result<Reply<Post>>)
    ensures r.Fail? <==>
      !Given(req.postId) || !Given(req.content) || ParsePostType(req.postType).None? || req.postId in db.posts
    ensures r.Fail? && (!Given(req.postId) || !Given(req.content)) ==> r == Fail(BadRequest, MissingFields)
    ensures r.Fail? && Given(req.postId) && Given(req.content) ==> r == Fail(ServerError, CreateFailed)
    ensures r.Ok? ==> r.value.db == db.(posts := db.posts[req.postId := r.value.body])
    ensures r.Ok? ==>
      && r.value.db.posts.Keys == db.posts.Keys + {req.postId}
      && req.postId !in db.posts
      && r.value.db.posts[req.postId] == r.value.body
      && r.value.db.comments == db.comments && r.value.db.users == db.users
  {
    Create(db, req, t => NewPost(req, t, env))
  }

  /** POST /api/posts keeping the uploaded image the compose form sends. */
  function CreatePostKeepingImage(db: Db, req: CreateRequest, env: Env): (r: Result<Reply<Post>>)
    ensures r.Ok? ==>
      && r.value.db.posts.Keys == db.posts.Keys + {req.postId}
      && req.postId !in db.posts
      && r.value.db.posts[req.postId] == r.value.body
      && r.value.body.imageUrl == Optional(req.imageUrl)
  {
    Create(db, req, t => NewPost(req, t, env).(imageUrl := Optional(req.imageUrl)))
  }

  /** The created post carries the request's fields or their documented
      defaults, zero counters, and meets the schema's required fields. */
  lemma CreatedPostDefaults(db: Db, req: CreateRequest, env: Env)
    requires CreatePost(db, req, env).Ok? && Given(env.isoNow)
    ensures var p := CreatePost(db, req, env).value.body;
      && p.postId == req.postId && p.content == req.content
      && p.topic == (if Given(req.topic) then req.topic else "General")
      && p.authorName == (if Given(req.authorName) then req.authorName else "Người dùng")
      && p.authorHandle == (if Given(req.authorHandle) then req.authorHandle else "@user")
      && p.timestamp == (if Given(req.timestamp) then req.timestamp else env.isoNow)
      && (Given(req.postType) ==> p.postType.Name() == req.postType)
      && (!Given(req.postType) ==> p.postType == TypePost)
      && p.likes == 0 && p.retweets == 0 && p.replies == 0
      && p.likedBy == [] && p.retweetedBy == []
      && PostRequiredFieldsPresent(p)
  {
  }

  /** Creating the same `postId` twice fails the second time and leaves the
      first post in place. */
  lemma CreateTwiceFails(db: Db, req: CreateRequest, env: Env, env2: Env)
    requires CreatePost(db, req, env).Ok?
    ensures var d := CreatePost(db, req, env).value.db;
      CreatePost(d, req, env2) == Fail(ServerError, CreateFailed)
  {
  }

  /** As written, the image URL of the request never reaches the stored post:
      a request with an image creates a post without one. */
  lemma CreatePostDropsImage(db: Db, req: CreateRequest, env: Env)
    requires CreatePost(db, req, env).Ok? && Given(req.imageUrl)
    ensures CreatePost(db, req, env).value.body.imageUrl == None
    ensures CreatePost(db, req, env).value.body.imageUrl != Optional(req.imageUrl)
  {
  }

  /** The corrected creation stores the image and otherwise creates exactly
      the same post. */
  lemma KeepingImageOnlyAddsImage(db: Db, req: CreateRequest, env: Env)
    ensures var a := CreatePost(db, req, env);
      var b := CreatePostKeepingImage(db, req, env);
      && (a.Fail? <==> b.Fail?)
      && (a.Fail? ==> a == b)
      && (a.Ok? ==> b.value.body == a.value.body.(imageUrl := Optional(req.imageUrl)))
  {
  }
}

=== FILE: records.dfy ===
/** The document records of the application (one datatype per schema) and the
    schema rules each record is declared with: required fields, enumerations,
    length bounds and defaults. Counters are JavaScript numbers and can be
    driven negative by the handlers, so they are `int`. */
module Records {

  import opened Common

  /** The `type` enumeration of a post: 'post', 'reply' or 'news'. */
  datatype PostType = TypePost | TypeReply | TypeNews {
    function Name(): string {
      match this
      case TypePost => "post"
      case TypeReply => "reply"
      case TypeNews => "news"
    }
  }

  /** A post document. `createdAt` is the store's creation tick. */
  datatype Post = Post(
    postId: string,
    topic: string,
    authorName: string,
    authorHandle: string,
    authorAvatarUrl: Option<string>,
    content: string,
    timestamp: string,
    postType: PostType,
    imageUrl: Option<string>,
    likes: int,
    retweets: int,
    replies: int,
    likedBy: seq<string>,
    retweetedBy: seq<string>,
    createdAt: nat)

  /** The PostSchema's required string fields are all present. */
  predicate PostRequiredFieldsPresent(p: Post) {
    && Given(p.postId) && Given(p.topic) && Given(p.authorName)
    && Given(p.authorHandle) && Given(p.content) && Given(p.timestamp)
  }

  /** A post document holding only `postId`, every other field at the value
      the schema gives it when it is not written: type 'post', no avatar or
      image, counters 0, empty lists, absent strings. */
  function PostWithDefaults(postId: string, createdAt: nat): Post {
    Post(postId, "", "", "", None, "", "", TypePost, None, 0, 0, 0, [], [], createdAt)
  }

  const CommentMaxLength: nat := 500

  /** A comment document; `id` is its store identifier. */
  datatype Comment = Comment(
    id: string,
    postId: string,
    userId: string,
    userName: string,
    userHandle: string,
    userAvatar: string,
    content: string,
    likes: int,
    likedBy: seq<string>,
    createdAt: nat)

  /** The CommentSchema's rules: required fields and the content bound. */
  predicate CommentSchemaOk(c: Comment) {
    && Given(c.postId) && Given(c.userId) && Given(c.userName)
    && Given(c.userHandle) && Given(c.content) && |c.content| <= CommentMaxLength
  }

  const MinPasswordLength: nat := 6
  const MaxBioLength: nat := 160

  /** A user document. The password is kept as given. */
  datatype User = User(
    id: string,
    email: string,
    password: string,
    name: string,
    handle: string,
    avatarUrl: string,
    bio: string,
    isVerified: bool)

  /** The UserSchema's rules: required fields, password and bio bounds. */
  predicate UserSchemaOk(u: User) {
    && Given(u.email) && Given(u.password) && Given(u.name) && Given(u.handle)
    && |u.password| >= MinPasswordLength && |u.bio| <= MaxBioLength
  }

  /** The `type` enumeration of a notification. */
  datatype NotificationType = LikeNote | CommentNote | RetweetNote | MentionNote | FollowNote | SystemNote {
    function Name(): string {
      match this
      case LikeNote => "like"
      case CommentNote => "comment"
      case RetweetNote => "retweet"
      case MentionNote => "mention"
      case FollowNote => "follow"
      case SystemNote => "system"
    }
  }

  /** A notification document, addressed to `userId`. */
  datatype Notification = Notification(
    id: string,
    userId: string,
    kind: NotificationType,
    title: string,
    titleEn: string,
    message: string,
    messageEn: string,
    postId: Option<string>,
    fromUserId: Option<string>,
    fromUserName: Option<string>,
    fromUserAvatar: Option<string>,
    isRead: bool,
    createdAt: nat)

  /** The NotificationSchema's required string fields are all present. */
  predicate NotificationSchemaOk(n: Notification) {
    && Given(n.userId) && Given(n.title) && Given(n.titleEn)
    && Given(n.message) && Given(n.messageEn)
  }

  /** The activity counters kept per visitor identifier `odId`. */
  datatype UserStats = UserStats(
    odId: string,
    sessionId: string,
    totalLikes: int,
    totalComments: int,
    totalRetweets: int,
    topicsExplored: seq<string>,
    lastActive: nat)

  /** The UserStatsSchema's required fields are present. */
  predicate UserStatsSchemaOk(s: UserStats) {
    Given(s.odId) && Given(s.sessionId)
  }

  /** The author block of a feed post. */
  datatype Author = Author(name: string, handle: string, avatarUrl: string, isVerified: bool)

  /** The engagement block of a feed post. */
  datatype PostStats = PostStats(likes: int, retweets: int, replies: int)

  /** A post as the feed renders it. The listing handler adds `topic`, which
      the mock feed data does not carry. */
  datatype SocialPost = SocialPost(
    id: string,
    author: Author,
    content: string,
    timestamp: string,
    stats: PostStats,
    postType: PostType,
    topic: Option<string>)

  /** The avatar service the handlers seed avatars from. */
  const AvatarBase: string := "https://api.dicebear.com/7.x/personas/svg?seed="
}

=== FILE: register_page.dfy ===
/** The registration page of the client: the handle field filters what is
    typed, and the submission checks the password confirmation and length
    before the form is sent to POST /api/auth/register. */
module RegisterPage {

  import opened Common
  import Text
  import Language
  import Records
  import Store
  import Auth

  /** The page's fields. */
  datatype Form = Form(name: string, email: string, handle: string, password: string, confirm: string)

  /** Typing into the handle field: lower-cased, and every character outside
      `[a-z0-9_]` dropped, the others kept in order (`Text.KeepHandleCharsOne`
      and `Text.KeepHandleCharsAppend`). */
  function HandleInput(typed: string, lower: string -> string): (h: string)
    ensures Text.HandleOnly(h)
    ensures h == Text.KeepHandleChars(lower(typed))
    ensures Text.HandleOnly(lower(typed)) ==> h == lower(typed)
  {
    Text.KeepHandleCharsFixed(lower(typed));
    Text.KeepHandleChars(lower(typed))
  }

  /** What a submission comes to: a message shown without any request, or
      the request sent. */
  datatype Submission = Refused(message: string) | Sent(req: Auth.RegisterRequest)

  /** `handleSubmit`: a confirmation that differs is reported first, then a
      password under six characters; otherwise the four fields are sent. */
  function Submit(f: Form, lang: Language.Lang): (r: Submission)
    ensures f.password != f.confirm ==>
      r == Refused(Language.T(lang, "Mật khẩu xác nhận không khớp", "Passwords do not match"))
    ensures f.password == f.confirm && |f.password| < Records.MinPasswordLength ==>
      r == Refused(Language.T(lang, "Mật khẩu phải có ít nhất 6 ký tự", "Password must be at least 6 characters"))
    ensures r.Sent? <==> f.password == f.confirm && |f.password| >= Records.MinPasswordLength
    ensures r.Sent? ==> r.req == Auth.RegisterRequest(f.email, f.password, f.name, f.handle)
  {
    if f.password != f.confirm then
      Refused(Language.T(lang, "Mật khẩu xác nhận không khớp", "Passwords do not match"))
    else if |f.password| < Records.MinPasswordLength then
      Refused(Language.T(lang, "Mật khẩu phải có ít nhất 6 ký tự", "Password must be at least 6 characters"))
    else Sent(Auth.RegisterRequest(f.email, f.password, f.name, f.handle))
  }

  /** The message the page shows for a failed registration: the server's
      error, or a fallback when it gave none. */
  function FailureMessage(error: string): (m: string)
    ensures Given(m)
    ensures Given(error) ==> m == error
  {
    OrElse(error, "Đăng ký thất bại")
  }

  /** A request the page sends never meets the server's short-password
      refusal: the page already demands six characters. */
  lemma SentPasswordLongEnough(f: Form, lang: Language.Lang, db: Store.Db, lower: string -> string, env: Store.Env)
    requires Submit(f, lang).Sent?
    ensures Auth.Register(db, Submit(f, lang).req, lower, env) != Fail(BadRequest, Auth.ShortPassword)
  {
  }

  /** A handle typed through this page already is what the server stores,
      as long as lower-casing leaves such a handle alone, so the server's
      duplicate-handle check sees the stored form and the two versions of
      the registration agree. */
  lemma PageHandleAgreesWithStored(f: Form, lang: Language.Lang, db: Store.Db, lower: string -> string,
                                   env: Store.Env, typed: string)
    requires f.handle == HandleInput(typed, lower)
    requires lower(f.handle) == f.handle
    requires Submit(f, lang).Sent?
    ensures Auth.StoredHandle(Submit(f, lang).req.handle, lower) == f.handle
    ensures Auth.Register(db, Submit(f, lang).req, lower, env)
         == Auth.RegisterNormalized(db, Submit(f, lang).req, lower, env)
  {
    Text.KeepHandleCharsFixed(f.handle);
    Auth.VersionsAgreeOtherwise(db, Submit(f, lang).req, lower, env);
  }
}

=== FILE: seed.dfy ===
/** POST /api/seed (replace every post by the historical events of the
    bundled data file) and GET /api/seed (the seeding status).

    The data file and `Math.random` are parameters: `events` is the file's
    content and `draws` holds, per event, the three values
    `Math.floor(Math.random() * n)` produces for the counters. */
module Seed {

  import opened Common
  import opened Records
  import opened Store
  import Lists
  import Text

  /** One entry of the events data file. */
  datatype Event = Event(id: string, authorName: string, authorHandle: string, avatarUrl: Option<string>,
                         content: string, timestamp: string, topic: string, postType: PostType)

  /** The random parts of the counters, before the fixed minimum is added. */
  datatype Draw = Draw(likes: nat, retweets: nat, replies: nat)

  const LikesRange: nat := 500000
  const LikesMin: nat := 100000
  const RetweetsRange: nat := 200000
  const RetweetsMin: nat := 50000
  const RepliesRange: nat := 100000
  const RepliesMin: nat := 20000

  /** What `Math.floor(Math.random() * n)` can return. */
  predicate InRange(d: Draw) {
    d.likes < LikesRange && d.retweets < RetweetsRange && d.replies < RepliesRange
  }

  /** The `data` of a successful seeding. */
  datatype SeedSummary = SeedSummary(count: nat, topics: seq<string>, message: string, messageEn: string)

  /** The `data` of the status read. */
  datatype SeedStatus = SeedStatus(totalPosts: nat, topics: set<string>, eventsInFile: nat, message: string)

  function Key(e: Event): string {
    "vn-" + e.id
  }

  /** The post document an event becomes. */
  function SeedPost(e: Event, d: Draw, clock: nat): Post {
    Post(Key(e), e.topic, e.authorName, e.authorHandle, e.avatarUrl, e.content, e.timestamp,
         e.postType, None, d.likes + LikesMin, d.retweets + RetweetsMin, d.replies + RepliesMin,
         [], [], clock)
  }

  /** No two of the first `n` events share a post key. */
  predicate DistinctUpTo(events: seq<Event>, n: nat)
    requires n <= |events|
  {
    forall i, j :: 0 <= i < j < n ==> Key(events[i]) != Key(events[j])
  }

  /** No two events share a post key. */
  predicate DistinctKeys(events: seq<Event>) {
    DistinctUpTo(events, |events|)
  }

  function Topics(events: seq<Event>): (r: seq<string>)
    ensures |r| == |events| && forall i :: 0 <= i < |events| ==> r[i] == events[i].topic
  {
    seq(|events|, i requires 0 <= i < |events| => events[i].topic)
  }

  /** The post keys of the first `n` events. */
  function KeysUpTo(events: seq<Event>, n: nat): set<string>
    requires n <= |events|
  {
    set i | 0 <= i < n :: Key(events[i])
  }

  /** The post keys of the events. */
  function KeySet(events: seq<Event>): set<string> {
    KeysUpTo(events, |events|)
  }

  /** The ordered `insertMany` into an emptied collection: the posts are
      inserted in turn until one's key is already present. `stop` is the
      number inserted; it is `|events|` exactly when every key is new. */
  method InsertInOrder(events: seq<Event>, draws: seq<Draw>, clock: nat)
    returns (posts: map<string, Post>, stop: nat)
    requires |draws| == |events|
    ensures stop <= |events|
    ensures DistinctUpTo(events, stop)
    ensures posts.Keys == KeysUpTo(events, stop) && |posts| == stop
    ensures forall j :: 0 <= j < stop ==> posts[Key(events[j])] == SeedPost(events[j], draws[j], clock)
    ensures stop < |events| ==> Key(events[stop]) in KeysUpTo(events, stop)
  {
    posts := map[];
    stop := 0;
    while stop < |events| && Key(events[stop]) !in posts
      invariant 0 <= stop <= |events|
      invariant posts == Inserted(events, draws, clock, stop)
      invariant posts.Keys == KeysUpTo(events, stop) && |posts| == stop
    {
      KeysStep(events, stop);
      posts := posts[Key(events[stop]) := SeedPost(events[stop], draws[stop], clock)];
      stop := stop + 1;
    }
    CountedDistinct(events, stop);
    InsertedHolds(events, draws, clock, stop);
  }

  /** The keys of one more event. */
  lemma KeysStep(events: seq<Event>, n: nat)
    requires n < |events|
    ensures KeysUpTo(events, n + 1) == KeysUpTo(events, n) + {Key(events[n])}
  {
  }

  /** The first `n` events have at most `n` keys. */
  lemma {:induction false} KeysAtMost(events: seq<Event>, n: nat)
    requires n <= |events|
    ensures |KeysUpTo(events, n)| <= n
  {
    if n > 0 {
      KeysAtMost(events, n - 1);
      KeysStep(events, n - 1);
    }
  }

  /** `n` events with `n` keys have distinct keys. */
  lemma {:induction false} CountedDistinct(events: seq<Event>, n: nat)
    requires n <= |events| && |KeysUpTo(events, n)| == n
    ensures DistinctUpTo(events, n)
  {
    if n > 0 {
      KeysStep(events, n - 1);
      KeysAtMost(events, n - 1);
      assert Key(events[n - 1]) !in KeysUpTo(events, n - 1);
      CountedDistinct(events, n - 1);
      forall i, j | 0 <= i < j < n ensures Key(events[i]) != Key(events[j]) {
        if j == n - 1 {
          assert Key(events[i]) in KeysUpTo(events, n - 1);
        }
      }
    }
  }

  /** The collection after the first `n` posts were inserted. */
  function Inserted(events: seq<Event>, draws: seq<Draw>, clock: nat, n: nat): map<string, Post>
    requires n <= |events| == |draws|
  {
    if n == 0 then map[]
    else Inserted(events, draws, clock, n - 1)[Key(events[n - 1]) := SeedPost(events[n - 1], draws[n - 1], clock)]
  }

  /** With distinct keys, each inserted event's post sits under its key. */
  lemma {:induction false} InsertedHolds(events: seq<Event>, draws: seq<Draw>, clock: nat, n: nat)
    requires n <= |events| == |draws| && DistinctUpTo(events, n)
    ensures forall j :: 0 <= j < n ==>
      Key(events[j]) in Inserted(events, draws, clock, n)
      && Inserted(events, draws, clock, n)[Key(events[j])] == SeedPost(events[j], draws[j], clock)
  {
    if n > 0 {
      InsertedHolds(events, draws, clock, n - 1);
    }
  }

  /** Distinct keys make as many keys as events. */
  lemma {:induction false} KeysCount(events: seq<Event>, n: nat)
    requires n <= |events| && DistinctUpTo(events, n)
    ensures |KeysUpTo(events, n)| == n
  {
    if n > 0 {
      KeysCount(events, n - 1);
      assert KeysUpTo(events, n) == KeysUpTo(events, n - 1) + {Key(events[n - 1])};
      assert Key(events[n - 1]) !in KeysUpTo(events, n - 1);
    }
  }

  /** POST /api/seed. `insertMany` is ordered: it inserts the posts in turn
      and throws at the first key already present, keeping what it inserted
      before; the handler then answers 500 with the driver's message. */
  method Seed(db: Db, events: seq<Event>, draws: seq<Draw>, env: Env, driverError: string)
    returns (after: Db, r: Result<SeedSummary>)
    requires |draws| == |events| && forall i :: 0 <= i < |draws| ==> InRange(draws[i])
    ensures after.comments == db.comments && after.notifications == db.notifications
    ensures after.users == db.users && after.stats == db.stats
    ensures r.Ok? <==> DistinctKeys(events)
    ensures r.Ok? ==>
      && after.posts.Keys == KeySet(events)
      && |after.posts| == |events|
      && (forall i :: 0 <= i < |events| ==> after.posts[Key(events[i])] == SeedPost(events[i], draws[i], env.clock))
      && r.value.count == |events|
      && r.value.topics == Lists.Firsts(Topics(events))
      && Lists.NoDup(r.value.topics)
      && (forall t :: t in r.value.topics <==> exists i :: 0 <= i < |events| && events[i].topic == t)
    ensures r.Fail? ==>
      && r == Fail(ServerError, driverError)
      && exists k :: 0 < k < |events| && DistinctUpTo(events, k) && Key(events[k]) in KeysUpTo(events, k)
                     && after.posts.Keys == KeysUpTo(events, k)
  {
    var posts, stop := InsertInOrder(events, draws, env.clock);
    after := db.(posts := posts);
    if stop < |events| {
      DuplicateFound(events, stop);
      r := Fail(ServerError, driverError);
    } else {
      var topics := Lists.Distinct(Topics(events));
      TopicsOfEvents(events);
      r := Ok(SeedSummary(|events|, topics, SeededMessage(|events|), SeededMessageEn(|events|)));
    }
  }

  function SeededMessage(n: nat): string {
    "Đã thêm " + Text.Decimal(n) + " bài viết lịch sử Việt Nam vào database"
  }

  function SeededMessageEn(n: nat): string {
    "Successfully seeded " + Text.Decimal(n) + " Vietnamese historical posts"
  }

  lemma TopicsOfEvents(events: seq<Event>)
    ensures forall t :: t in Topics(events) <==> exists i :: 0 <= i < |events| && events[i].topic == t
  {
    forall t | t in Topics(events) ensures exists j :: 0 <= j < |events| && events[j].topic == t {
      var j :| 0 <= j < |events| && Topics(events)[j] == t;
    }
  }

  /** The key at which the loop stopped repeats one before it, so the
      events do not have distinct keys. */
  lemma DuplicateFound(events: seq<Event>, k: nat)
    requires k < |events| && Key(events[k]) in KeysUpTo(events, k)
    ensures !DistinctKeys(events) && 0 < k
  {
    var j :| 0 <= j < k && Key(events[j]) == Key(events[k]);
  }

  /** GET /api/seed. `topics` is the set `distinct('topic')` returns, which
      skips a record without a topic (one the comment upsert created). */
  function Status(db: Db, eventsInFile: nat): (s: SeedStatus)
    ensures s.totalPosts == |db.posts| && s.eventsInFile == eventsInFile
    ensures forall t :: t in s.topics <==> Given(t) && exists k :: k in db.posts && db.posts[k].topic == t
    ensures s.message == "Database trống / Database is empty" <==> db.posts == map[]
  {
    var count := |db.posts|;
    var msg := if count > 0
      then "Database có " + Text.Decimal(count) + " bài viết / Database has " + Text.Decimal(count) + " posts"
      else "Database trống / Database is empty";
    assert count > 0 ==> msg[..9] == "Database " && msg[9] == 'c';
    SeedStatus(count, set k | k in db.posts && Given(db.posts[k].topic) :: db.posts[k].topic, eventsInFile, msg)
  }

  /** After a successful seeding the status reports one post per event and
      exactly the events' topics, and every counter lies in its documented
      range. */
  method SeedThenStatus(db: Db, events: seq<Event>, draws: seq<Draw>, env: Env, driverError: string)
    returns (s: SeedStatus)
    requires |draws| == |events| && forall i :: 0 <= i < |draws| ==> InRange(draws[i])
    requires DistinctKeys(events)
    ensures s.totalPosts == |events|
    ensures forall t :: t in s.topics <==> Given(t) && exists i :: 0 <= i < |events| && events[i].topic == t
    ensures forall i :: 0 <= i < |events| ==>
      var p := SeedPost(events[i], draws[i], env.clock);
      && LikesMin <= p.likes < LikesMin + LikesRange
      && RetweetsMin <= p.retweets < RetweetsMin + RetweetsRange
      && RepliesMin <= p.replies < RepliesMin + RepliesRange
  {
    var after, r := Seed(db, events, draws, env, driverError);
    s := Status(after, |events|);
    forall t | t in s.topics ensures exists i :: 0 <= i < |events| && events[i].topic == t {
      var k :| k in after.posts && after.posts[k].topic == t;
      var i :| 0 <= i < |events| && Key(events[i]) == k;
    }
    forall t | Given(t) && (exists i :: 0 <= i < |events| && events[i].topic == t) ensures t in s.topics {
      var i :| 0 <= i < |events| && events[i].topic == t;
      assert Key(events[i]) in after.posts;
    }
  }
}

=== FILE: stats.dfy ===
/** GET and POST /api/stats: per-visitor activity counters kept under the
    visitor identifier `odId` (find-or-create, then one counter update per
    action), and the global totals over all posts and comments. */
module Stats {

  import opened Common
  import opened Records
  import opened Store
  import Lists

  datatype StatsRequest = StatsRequest(odId: string, sessionId: string, action: string, topic: string)

  /** The `data` of a per-visitor read: the stored record, or the zero
      counters answered for a visitor the store does not know. */
  datatype StatsData = Stored(record: UserStats) | Zero(odId: string) {
    function Likes(): int {
      if Stored? then record.totalLikes else 0
    }
    function Comments(): int {
      if Stored? then record.totalComments else 0
    }
    function Retweets(): int {
      if Stored? then record.totalRetweets else 0
    }
    function Topics(): seq<string> {
      if Stored? then record.topicsExplored else []
    }
  }

  /** The `data` of a global read, without the top-topics aggregation. */
  datatype GlobalStats = GlobalStats(totalPosts: nat, totalComments: nat, totalLikes: int, totalRetweets: int)

  const MissingIds: string := "odId và sessionId là bắt buộc / odId and sessionId are required"
  const MissingOdId: string := "odId là bắt buộc / odId is required"

  /** The record created for a visitor seen for the first time. */
  function NewStats(odId: string, sessionId: string, clock: nat): UserStats {
    UserStats(odId, sessionId, 0, 0, 0, [], clock)
  }

  /** The counter update of one action; an unknown action updates nothing. */
  function ApplyAction(s: UserStats, action: string, topic: string): UserStats {
    if action == "like" then s.(totalLikes := s.totalLikes + 1)
    else if action == "unlike" then s.(totalLikes := Max(0, s.totalLikes - 1))
    else if action == "comment" then s.(totalComments := s.totalComments + 1)
    else if action == "retweet" then s.(totalRetweets := s.totalRetweets + 1)
    else if action == "explore" && Given(topic) then s.(topicsExplored := Lists.AddIfAbsent(s.topicsExplored, topic))
    else s
  }

  /** POST /api/stats. */
  function RecordAction(db: Db, req: StatsRequest, env: Env): (r: Result<Reply<UserStats>>)
    ensures r.Fail? <==> !Given(req.odId) || !Given(req.sessionId)
    ensures r.Fail? ==> r.status == BadRequest
    ensures r.Ok? ==>
      var after := r.value.db;
      && after.stats.Keys == db.stats.Keys + {req.odId}
      && after.stats[req.odId] == r.value.body
      && (forall k :: k in db.stats && k != req.odId ==> after.stats[k] == db.stats[k])
      && after.posts == db.posts && after.comments == db.comments
      && after.notifications == db.notifications && after.users == db.users
      && (Keyed(db) ==> Keyed(after))
      && r.value.body.sessionId == req.sessionId
      && r.value.body.lastActive == env.clock
      && (Keyed(db) ==> UserStatsSchemaOk(r.value.body))
  {
    if !Given(req.odId) || !Given(req.sessionId) then Fail(BadRequest, MissingIds)
    else
      var current := if req.odId in db.stats then db.stats[req.odId]
                     else NewStats(req.odId, req.sessionId, env.clock);
      var updated := ApplyAction(current, req.action, req.topic)
                       .(lastActive := env.clock, sessionId := req.sessionId);
      Ok(Reply(db.(stats := db.stats[req.odId := updated]), updated))
  }

  /** GET /api/stats for one visitor. */
  function GetUserStats(db: Db, odId: string): (r: Result<StatsData>)
    ensures r.Fail? <==> !Given(odId)
    ensures r.Fail? ==> r.status == BadRequest
    ensures r.Ok? && odId in db.stats ==> r.value == Stored(db.stats[odId])
    ensures r.Ok? && odId !in db.stats ==>
      r.value.Likes() == 0 && r.value.Comments() == 0 && r.value.Retweets() == 0 && r.value.Topics() == []
  {
    if !Given(odId) then Fail(BadRequest, MissingOdId)
    else if odId in db.stats then Ok(Stored(db.stats[odId]))
    else Ok(Zero(odId))
  }

  function SumLikes(ps: seq<Post>): int {
    if ps == [] then 0 else ps[0].likes + SumLikes(ps[1..])
  }

  function SumRetweets(ps: seq<Post>): int {
    if ps == [] then 0 else ps[0].retweets + SumRetweets(ps[1..])
  }

  /** GET /api/stats?type=global over the documents of the posts and
      comments collections, listed in any order. */
  function Global(posts: seq<Post>, comments: seq<Comment>): (g: GlobalStats)
    ensures g.totalPosts == |posts| && g.totalComments == |comments|
    ensures posts == [] ==> g.totalLikes == 0 && g.totalRetweets == 0
  {
    GlobalStats(|posts|, |comments|, SumLikes(posts), SumRetweets(posts))
  }

  /** The effect of each action on the counters: exactly one counter moves,
      by one (likes never below 0), exploring adds a given topic once, and
      any other action leaves every counter as it was. */
  lemma ActionEffect(s: UserStats, action: string, topic: string)
    ensures var t := ApplyAction(s, action, topic);
      && t.odId == s.odId && t.sessionId == s.sessionId && t.lastActive == s.lastActive
      && t.totalLikes == (if action == "like" then s.totalLikes + 1
                          else if action == "unlike" then Max(0, s.totalLikes - 1)
                          else s.totalLikes)
      && t.totalComments == (if action == "comment" then s.totalComments + 1 else s.totalComments)
      && t.totalRetweets == (if action == "retweet" then s.totalRetweets + 1 else s.totalRetweets)
      && (action == "explore" && Given(topic) ==>
            (forall x :: x in t.topicsExplored <==> x in s.topicsExplored || x == topic)
            && t.topicsExplored[..|s.topicsExplored|] == s.topicsExplored)
      && (action != "explore" || !Given(topic) ==> t.topicsExplored == s.topicsExplored)
  {
  }

  /** Counters that start non-negative stay so, and the explored topics never
      hold a duplicate. */
  lemma ActionKeepsInvariant(s: UserStats, action: string, topic: string)
    requires s.totalLikes >= 0 && s.totalComments >= 0 && s.totalRetweets >= 0
    requires Lists.NoDup(s.topicsExplored)
    ensures var t := ApplyAction(s, action, topic);
      && t.totalLikes >= 0 && t.totalComments >= 0 && t.totalRetweets >= 0
      && Lists.NoDup(t.topicsExplored)
  {
  }

  /** A like followed by an unlike restores a non-negative like counter;
      exploring a topic twice is the same as exploring it once. */
  lemma LikeUnlikeAndExploreTwice(s: UserStats, topic: string)
    requires s.totalLikes >= 0
    ensures ApplyAction(ApplyAction(s, "like", ""), "unlike", "") == s
    ensures var once := ApplyAction(s, "explore", topic);
      ApplyAction(once, "explore", topic) == once
  {
  }

  /** What a read returns after a recorded action is the record the action
      answered with. */
  lemma ReadAfterRecord(db: Db, req: StatsRequest, env: Env)
    requires Given(req.odId) && Given(req.sessionId)
    ensures var r := RecordAction(db, req, env);
      r.Ok? && GetUserStats(r.value.db, req.odId) == Ok(Stored(r.value.body))
  {
  }

  /** A first-time visitor's record holds the one action's effect on zero
      counters. */
  lemma FirstVisit(db: Db, req: StatsRequest, env: Env)
    requires Given(req.odId) && Given(req.sessionId) && req.odId !in db.stats
    ensures var r := RecordAction(db, req, env);
      && r.Ok?
      && r.value.body.totalLikes == (if req.action == "like" then 1 else 0)
      && r.value.body.totalComments == (if req.action == "comment" then 1 else 0)
      && r.value.body.totalRetweets == (if req.action == "retweet" then 1 else 0)
      && r.value.body.topicsExplored == (if req.action == "explore" && Given(req.topic) then [req.topic] else [])
  {
  }

  /** A returning visitor's record moves as `ActionEffect` describes,
      starting from the stored counters and topics. */
  lemma ReturningVisit(db: Db, req: StatsRequest, env: Env)
    requires Given(req.odId) && Given(req.sessionId) && req.odId in db.stats
    ensures var r := RecordAction(db, req, env);
      var s := db.stats[req.odId];
      && r.Ok?
      && r.value.body.odId == s.odId
      && r.value.body.totalLikes == (if req.action == "like" then s.totalLikes + 1
                                    else if req.action == "unlike" then Max(0, s.totalLikes - 1)
                                    else s.totalLikes)
      && r.value.body.totalComments == (if req.action == "comment" then s.totalComments + 1 else s.totalComments)
      && r.value.body.totalRetweets == (if req.action == "retweet" then s.totalRetweets + 1 else s.totalRetweets)
      && (req.action == "explore" && Given(req.topic) ==>
            (forall x :: x in r.value.body.topicsExplored <==> x in s.topicsExplored || x == req.topic)
            && r.value.body.topicsExplored[..|s.topicsExplored|] == s.topicsExplored)
      && (req.action != "explore" || !Given(req.topic) ==> r.value.body.topicsExplored == s.topicsExplored)
  {
    ActionEffect(db.stats[req.odId], req.action, req.topic);
  }

  /** The global sums split over any division of the posts, so they do not
      depend on the order the documents are listed in beyond additivity. */
  lemma {:induction false} SumsAdd(a: seq<Post>, b: seq<Post>)
    ensures SumLikes(a + b) == SumLikes(a) + SumLikes(b)
    ensures SumRetweets(a + b) == SumRetweets(a) + SumRetweets(b)
  {
    if a == [] {
      assert a + b == b;
    } else {
      assert (a + b)[1..] == a[1..] + b;
      SumsAdd(a[1..], b);
    }
  }

  /** The totals do not depend on the order the documents are listed in:
      two listings of the same posts give the same sums. */
  lemma {:induction false} SumsIgnoreOrder(a: seq<Post>, b: seq<Post>)
    requires multiset(a) == multiset(b)
    ensures SumLikes(a) == SumLikes(b) && SumRetweets(a) == SumRetweets(b)
    decreases |a|
  {
    if a != [] {
      var x := a[0];
      assert x in multiset(b);
      var k :| 0 <= k < |b| && b[k] == x;
      var rest := b[..k] + b[k + 1..];
      assert b == b[..k] + [x] + b[k + 1..];
      assert a == [x] + a[1..];
      assert multiset(b) == multiset(b[..k]) + multiset{x} + multiset(b[k + 1..]);
      assert multiset(a) == multiset{x} + multiset(a[1..]);
      assert multiset(rest) == multiset(b[..k]) + multiset(b[k + 1..]);
      assert multiset(a[1..]) == multiset(a) - multiset{x};
      assert multiset(rest) == multiset(b) - multiset{x};
      SumsIgnoreOrder(a[1..], rest);
      SumsAdd(b[..k] + [x], b[k + 1..]);
      SumsAdd(b[..k], [x]);
      SumsAdd(b[..k], b[k + 1..]);
      assert [x][1..] == [];
    } else {
      assert |b| == |multiset(b)| == 0;
    }
  }
}

=== FILE: store.dfy ===
/** The document store the handlers read and write, abstracted from the
    database: posts keyed by `postId` (unique), stats keyed by `odId`
    (unique), and comments, notifications and users as sequences.

    Comments and notifications are kept newest first: a new document is put
    in front, so the `sort({ createdAt: -1 })` of the list handlers is the
    stored order. Every handler is one atomic step from a store to a store. */
module Store {

  import opened Common
  import opened Records

  datatype Db = Db(
    posts: map<string, Post>,
    comments: seq<Comment>,
    notifications: seq<Notification>,
    users: seq<User>,
    stats: map<string, UserStats>)

  /** What a handler that succeeded leaves behind: the new store and the
      response body. */
  datatype Reply<T> = Reply(db: Db, body: T)

  /** The values a handler takes from its environment: the clock, both as an
      ordering tick and as an ISO-8601 string, and the identifier the database
      assigns to a document it creates. */
  datatype Env = Env(clock: nat, isoNow: string, freshId: string)

  /** Every record sits under its own key. */
  predicate Keyed(db: Db) {
    && (forall k :: k in db.posts ==> db.posts[k].postId == k)
    && (forall k :: k in db.stats ==> db.stats[k].odId == k)
  }

  /** Comments and notifications are stored newest first. */
  predicate NewestFirst(db: Db) {
    && (forall i, j :: 0 <= i < j < |db.comments| ==> db.comments[i].createdAt >= db.comments[j].createdAt)
    && (forall i, j :: 0 <= i < j < |db.notifications| ==> db.notifications[i].createdAt >= db.notifications[j].createdAt)
  }

  /** The clock is not behind any document already stored. */
  predicate ClockAhead(db: Db, env: Env) {
    && (forall c :: c in db.comments ==> c.createdAt <= env.clock)
    && (forall n :: n in db.notifications ==> n.createdAt <= env.clock)
  }

  /** A comment created at `clock`, put in front of comments stored newest
      first and none newer than `clock`, keeps them so. */
  lemma CommentInFront(c: Comment, cs: seq<Comment>, clock: nat)
    requires c.createdAt == clock
    requires forall i, j :: 0 <= i < j < |cs| ==> cs[i].createdAt >= cs[j].createdAt
    requires forall d :: d in cs ==> d.createdAt <= clock
    ensures forall i, j :: 0 <= i < j < |[c] + cs| ==> ([c] + cs)[i].createdAt >= ([c] + cs)[j].createdAt
  {
    var r := [c] + cs;
    forall i, j | 0 <= i < j < |r| ensures r[i].createdAt >= r[j].createdAt {
      assert r[j] == cs[j - 1] && r[j] in cs;
      if i > 0 {
        assert r[i] == cs[i - 1];
      }
    }
  }

  /** The same for a notification. */
  lemma NoteInFront(n: Notification, ns: seq<Notification>, clock: nat)
    requires n.createdAt == clock
    requires forall i, j :: 0 <= i < j < |ns| ==> ns[i].createdAt >= ns[j].createdAt
    requires forall d :: d in ns ==> d.createdAt <= clock
    ensures forall i, j :: 0 <= i < j < |[n] + ns| ==> ([n] + ns)[i].createdAt >= ([n] + ns)[j].createdAt
  {
    var r := [n] + ns;
    forall i, j | 0 <= i < j < |r| ensures r[i].createdAt >= r[j].createdAt {
      assert r[j] == ns[j - 1] && r[j] in ns;
      if i > 0 {
        assert r[i] == ns[i - 1];
      }
    }
  }

  /** `""` for an absent optional field, as the documents store it. */
  function Optional(s: string): Option<string> {
    if Given(s) then Some(s) else None
  }
}

=== FILE: text.dfy ===
/** The string operations of JavaScript that the handlers and components use:
    `trim`, `includes`, `indexOf`/`replace` of one character, `slice(0, n)`,
    the `[^a-z0-9_]` filter, and decimal rendering of a number. */
module Text {

  /** The characters `String.prototype.trim` removes: ECMAScript white space
      and line terminators. */
  predicate IsSpace(c: char) {
    || c == ' ' || c == '\t' || c == '\n' || c == '\r'
    || c == '\U{000B}' || c == '\U{000C}' || c == '\U{00A0}' || c == '\U{FEFF}'
    || c == '\U{1680}' || ('\U{2000}' <= c <= '\U{200A}')
    || c == '\U{2028}' || c == '\U{2029}' || c == '\U{202F}' || c == '\U{205F}'
    || c == '\U{3000}'
  }

  /** Every character is white space (so `s.trim()` is ""). */
  predicate Blank(s: string) {
    forall i :: 0 <= i < |s| ==> IsSpace(s[i])
  }

  function TrimStart(s: string): (r: string)
    ensures |r| <= |s|
    ensures r == s[|s| - |r|..]
    ensures Blank(s[..|s| - |r|])
    ensures r != [] ==> !IsSpace(r[0])
  {
    if s == [] || !IsSpace(s[0]) then s
    else
      var t := TrimStart(s[1..]);
      assert s[1..][..|s[1..]| - |t|] == s[1..|s| - |t|];
      t
  }

  function TrimEnd(s: string): (r: string)
    ensures |r| <= |s|
    ensures r == s[..|r|]
    ensures Blank(s[|r|..])
    ensures r != [] ==> !IsSpace(r[|r| - 1])
  {
    if s == [] || !IsSpace(s[|s| - 1]) then s
    else
      var t := TrimEnd(s[..|s| - 1]);
      assert s[..|s| - 1][|t|..] == s[|t|..|s| - 1];
      t
  }

  /** `s.trim()`. */
  function Trim(s: string): string {
    TrimEnd(TrimStart(s))
  }

  /** `s.trim()` is empty exactly when `s` is all white space; otherwise the
      trimmed string starts and ends with a character that is not. */
  lemma TrimEmptyIffBlank(s: string)
    ensures Trim(s) == [] <==> Blank(s)
    ensures Trim(s) != [] ==> !IsSpace(Trim(s)[0]) && !IsSpace(Trim(s)[|Trim(s)| - 1])
  {
    var a := TrimStart(s);
    if Trim(s) == [] {
      assert a[0..] == a;
      assert a == [];
      assert s[..|s|] == s;
    } else {
      assert Trim(s)[0] == a[0] == s[|s| - |a|];
    }
  }

  /** `k` occurs in `s` starting at index `i`. */
  predicate OccursAt(s: string, k: string, i: int) {
    0 <= i && i + |k| <= |s| && s[i..i + |k|] == k
  }

  /** `s.includes(k)`. */
  function Contains(s: string, k: string): (r: bool)
    ensures r <==> exists i :: OccursAt(s, k, i)
    decreases |s|
  {
    if |k| > |s| then false
    else if s[..|k|] == k then
      assert OccursAt(s, k, 0);
      true
    else
      assert !OccursAt(s, k, 0);
      assert forall i :: OccursAt(s[1..], k, i) ==> OccursAt(s, k, i + 1) by {
        forall i | OccursAt(s[1..], k, i) ensures OccursAt(s, k, i + 1) {
          assert s[1..][i..i + |k|] == s[i + 1..i + 1 + |k|];
        }
      }
      assert forall i :: OccursAt(s, k, i) ==> OccursAt(s[1..], k, i - 1) by {
        forall i | OccursAt(s, k, i) ensures OccursAt(s[1..], k, i - 1) {
          assert s[1..][i - 1..i - 1 + |k|] == s[i..i + |k|];
        }
      }
      Contains(s[1..], k)
  }

  /** `s.indexOf(c)`: the first index of `c`, or -1. */
  function IndexOf(s: string, c: char): (r: int)
    ensures -1 <= r < |s|
    ensures r == -1 <==> c !in s
    ensures r >= 0 ==> s[r] == c && c !in s[..r]
  {
    if s == [] then -1
    else if s[0] == c then 0
    else
      var t := IndexOf(s[1..], c);
      assert c in s[1..] ==> c in s;
      assert c in s ==> c in s[1..] by {
        if c in s {
          var j :| 0 <= j < |s| && s[j] == c;
          assert s[1..][j - 1] == c;
        }
      }
      if t == -1 then -1
      else
        assert s[..t + 1] == [s[0]] + s[1..][..t];
        t + 1
  }

  /** `s.replace(c, '')` with a one-character string pattern: only the first
      occurrence is removed. */
  function RemoveFirst(s: string, c: char): string {
    var i := IndexOf(s, c);
    if i < 0 then s else s[..i] + s[i + 1..]
  }

  /** Removing the first '@' of a handle: a handle that starts with it loses
      exactly that character, a handle without one is kept whole, and in every
      other case exactly one character (the leftmost '@') disappears. */
  lemma RemoveFirstAt(s: string, c: char)
    ensures c !in s ==> RemoveFirst(s, c) == s
    ensures |s| > 0 && s[0] == c ==> RemoveFirst(s, c) == s[1..]
    ensures c in s ==> |RemoveFirst(s, c)| == |s| - 1
    ensures multiset(RemoveFirst(s, c)) + (if c in s then multiset{c} else multiset{}) == multiset(s)
  {
    var i := IndexOf(s, c);
    if i >= 0 {
      assert s == s[..i] + [s[i]] + s[i + 1..];
    }
  }

  /** The characters the pattern `[a-z0-9_]` accepts. */
  predicate IsHandleChar(c: char) {
    ('a' <= c <= 'z') || ('0' <= c <= '9') || c == '_'
  }

  /** Every character of `s` passes the handle filter. */
  predicate HandleOnly(s: string) {
    forall i :: 0 <= i < |s| ==> IsHandleChar(s[i])
  }

  lemma HandleOnlyCons(s: string)
    requires s != []
    ensures HandleOnly(s) <==> IsHandleChar(s[0]) && HandleOnly(s[1..])
  {
    if IsHandleChar(s[0]) && HandleOnly(s[1..]) {
      forall i | 0 < i < |s| ensures IsHandleChar(s[i]) {
        assert s[i] == s[1..][i - 1];
      }
    }
  }

  /** `s.replace(/[^a-z0-9_]/g, '')`. */
  function KeepHandleChars(s: string): (r: string)
    ensures HandleOnly(r)
    ensures forall c :: c in r <==> c in s && IsHandleChar(c)
    ensures |r| <= |s|
  {
    if s == [] then []
    else
      var t := KeepHandleChars(s[1..]);
      assert forall c :: c in s <==> c == s[0] || c in s[1..] by {
        assert s == [s[0]] + s[1..];
      }
      if IsHandleChar(s[0]) then
        HandleOnlyCons([s[0]] + t);
        assert ([s[0]] + t)[1..] == t;
        [s[0]] + t
      else t
  }

  /** The filter works character by character: one character survives
      exactly when it is a handle character. */
  lemma KeepHandleCharsOne(c: char)
    ensures KeepHandleChars([c]) == if IsHandleChar(c) then [c] else []
  {
    assert [c][1..] == [];
  }

  /** ... and the survivors of a concatenation are those of each part, in
      order, so the filter keeps the order and the multiplicity of the
      characters it keeps. */
  lemma {:induction false} KeepHandleCharsAppend(a: string, b: string)
    ensures KeepHandleChars(a + b) == KeepHandleChars(a) + KeepHandleChars(b)
  {
    if a == [] {
      assert a + b == b;
    } else {
      assert (a + b)[0] == a[0] && (a + b)[1..] == a[1..] + b;
      KeepHandleCharsAppend(a[1..], b);
    }
  }

  /** Filtering is idempotent: a string that already passed the filter, and
      only such a string, is left as it is. */
  lemma {:induction false} KeepHandleCharsFixed(s: string)
    ensures KeepHandleChars(s) == s <==> HandleOnly(s)
  {
    if s != [] {
      KeepHandleCharsFixed(s[1..]);
      HandleOnlyCons(s);
      if !IsHandleChar(s[0]) {
        assert |KeepHandleChars(s)| <= |s[1..]| < |s|;
      } else {
        assert s == [s[0]] + s[1..];
      }
    }
  }

  /** `s.slice(0, n)` for n >= 0. */
  function Prefix(s: string, n: nat): (r: string)
    ensures |r| <= n && |r| <= |s|
    ensures |r| == n || r == s
    ensures r <= s
  {
    if |s| <= n then s else s[..n]
  }

  function DigitChar(d: nat): char
    requires d < 10
  {
    ['0', '1', '2', '3', '4', '5', '6', '7', '8', '9'][d]
  }

  /** The decimal rendering of a natural number, as template literals print it. */
  function Decimal(n: nat): (r: string)
    ensures r != []
    ensures forall i :: 0 <= i < |r| ==> '0' <= r[i] <= '9'
  {
    if n < 10 then [DigitChar(n)] else Decimal(n / 10) + [DigitChar(n % 10)]
  }
}
